=== FILE: README.md ===
# dSQ task runner: the decisions of `run_job`

dSQ ("Dead Simple Queue") runs a job file as a Slurm job array: every line of
the file is one self-contained shell command, and array task `tid` runs line
`tid`. `dSQBatch.py` is the per-task wrapper. For one invocation it does four
things:

- resolves the name of the stats file from a template, adding ".tsv" and
  putting the array job id in place of every "%j";
- looks up line `tid` of the job file, stripped of whitespace;
- runs that line through a shell and takes the child's return code as its own
  exit code, or records a diagnostic and exits with 1 when the line is
  missing or blank;
- unless suppressed, appends one tab-separated row to the stats file: task id,
  exit code, host, start, end, elapsed seconds and the command.

This project models those decisions as pure Dafny functions and proves what
they guarantee. It follows the script's behaviour under Python 3: Unicode
whitespace for `str.strip()` and universal-newline reading of the job file. The operating system's contributions are parameters:
- the job file's contents, already decoded to text;
- the hostname;
- the two clock readings and the elapsed time;
- `exec_job`, an arbitrary function from command to return code.

Modules, one per file:

- `Text` (text.dfy): Python's whitespace set, `str.strip()`,
  `str.split` on one character and `str.join`, with their round trips.
- `Decimal` (decimal.dfy): `str()` of integers, zero-padded fields, and
  reading them back.
- `JobLines` (joblines.dfy): universal-newline translation, the reference
  lookup over `split('\n')`, the lines a Python file object yields, and a
  single-pass scanning method equal to the reference.
- `StatsName` (statsname.dfy): ".tsv" suffixing, "%j" substitution and
  `split("%j")`, plus the `--stats-file` default as the source writes it.
- `StatsRow` (statsrow.dfy): timestamps, elapsed time, the record, and the
  row with its read-back properties.
- `RunJob` (runjob.dfy): the whole invocation, its exit code, concrete runs,
  and the not-found branch as the source writes it.

## Model

| member | source | states |
|---|---|---|
| Text.Strip | dSQBatch.py:93 | `l.strip()`: the result has no whitespace at either end, and it is empty exactly when the line is whitespace only |
| Text.StripPiece | dSQBatch.py:93 | the stripped command is a contiguous piece of the line, and everything cut from either side is whitespace |
| Text.StripExact | dSQBatch.py:93 | a trimmed string surrounded by any whitespace strips to exactly that string, so `Strip` is fixed by its contract |
| Text.StripIdempotent | dSQBatch.py:93 | stripping an already stripped command changes nothing |
| Text.StripIgnoresTrailingSpace | dSQBatch.py:91-93 | the line terminator a file iterator leaves on the line does not change the stripped command |
| Text.SplitAvoidsSep | dSQBatch.py:91 | no piece of a split holds the separator |
| Text.JoinSplit | dSQBatch.py:138 | joining the pieces of a split on the same separator restores the original text |
| Text.SplitJoin | dSQBatch.py:138 | splitting a join gives back every piece but the last, and the last split in turn |
| Text.SplitJoinExact | dSQBatch.py:138 | when no piece holds the separator, splitting the join gives back exactly the pieces |
| Text.SplitConcat | dSQBatch.py:91 | a separator splits the text into the pieces before it followed by the pieces after it |
| Decimal.NatToString | dSQBatch.py:86 | `str(jid)` is non-empty, all digits, with no leading zero unless it is "0" |
| Decimal.NatRoundTrip | dSQBatch.py:86 | the decimal text of a natural number reads back to that number |
| Decimal.CanonicalRoundTrip | dSQBatch.py:86 | every canonical digit string is the decimal text of the number it denotes |
| Decimal.IntToString | dSQBatch.py:138 | `str(ret)` starts with '-' exactly when the code is negative, and the digits after any sign are in canonical form, with no leading zero |
| Decimal.IntRoundTrip | dSQBatch.py:138 | the exit-code field reads back to the exit code, negative codes included |
| Decimal.Pad | dSQBatch.py:121-123 | a zero-padded field has exactly the requested width and only digits |
| Decimal.PadRoundTrip | dSQBatch.py:121-123 | a zero-padded field reads back to the number it pads |
| JobLines.Translate | dSQBatch.py:90 | no '\r' survives reading in text mode, so none reaches the lookup |
| JobLines.TranslateKeepsHead | dSQBatch.py:90 | text before the first '\r' is read unchanged |
| JobLines.TranslateCrLf | dSQBatch.py:90 | a "\r\n" pair is read as one "\n" and the rest is read on from there |
| JobLines.TranslateLoneCr | dSQBatch.py:90 | a '\r' not followed by '\n' is read as "\n", and the character after it is kept |
| JobLines.TranslateIdentity | dSQBatch.py:90 | a file already using "\n" line ends is read unchanged |
| JobLines.Lookup | dSQBatch.py:89-94 | the command for task `tid` never has whitespace at either end and never spans two lines |
| JobLines.LookupEmptyIff | dSQBatch.py:89-97 | the not-found test `mycmd == ""` holds exactly when there is no line `tid` or that line is whitespace only |
| JobLines.LookupIgnoresLaterLines | dSQBatch.py:91-94 | when line `tid` exists, the lookup is that line stripped, whatever text follows it |
| JobLines.LookupJoinedLines | dSQBatch.py:89-94 | a job file written as given lines gives task `tid` its own line, stripped, and gives any task past the last line nothing |
| JobLines.SecondOfThree | dSQBatch.py:89-94 | in a three-line job file whose lines hold no '\n' or '\r', task 1 gets the middle line when that line has no whitespace at either end |
| JobLines.FileLines | dSQBatch.py:91 | the lines `for l in tf` yields are non-empty and all but the last end in "\n" |
| JobLines.FileLinesConcat | dSQBatch.py:91 | the lines the file object yields, read back to back, are the whole file |
| JobLines.FileLineAt | dSQBatch.py:91 | line `tid` of the file object is line `tid` of the split, with or without its "\n"; past the file object's lines the split holds at most an empty piece |
| JobLines.LookupMatchesFileIteration | dSQBatch.py:90-94 | the source's loop over the file object and the lookup over the split lines always agree |
| JobLines.FindNewline | dSQBatch.py:91 | reading forward from a position stops at the next newline or at the end of the text |
| JobLines.ScanLookup | dSQBatch.py:89-94 | the single sequential pass that skips to line `tid`, strips it and stops computes exactly `Lookup` |
| StatsName.ResolveStatsName | dSQBatch.py:83-86 | the stats name always ends in ".tsv" and holds no "%j"; a template that already ends in ".tsv" gets no second suffix; a template without "%j" only gains the suffix; and for every template the name is the pieces of `template.split("%j")`, the last one suffixed, joined by `str(jid)`, so every "%j" is replaced and every other '%' is kept |
| StatsName.PiecesJoin | dSQBatch.py:86 | joining the pieces of `t.split("%j")` with "%j" restores `t` |
| StatsName.PiecesAvoidPlaceholder | dSQBatch.py:86 | no piece of `t.split("%j")` holds a "%j" |
| StatsName.PiecesOfJoin | dSQBatch.py:86 | splitting pieces without "%j", joined by "%j", gives back exactly those pieces |
| StatsName.PiecesAtFirst | dSQBatch.py:86 | the split cuts at the leftmost "%j" and carries on after it, whatever '%' signs come before it |
| StatsName.PiecesOfPlain | dSQBatch.py:86 | a text without "%j" is a single piece |
| StatsName.SubstituteSuffixedPieces | dSQBatch.py:83-86 | suffixing and then replacing in pieces joined by "%j" gives the pieces, the last one suffixed, joined by the replacement |
| StatsName.StrayPercent | dSQBatch.py:83-86 | "job_%a_%j.tsv" resolves to "job_%a_<jid>.tsv": a '%' that opens no "%j" is kept |
| StatsName.SubstituteRemovesPlaceholders | dSQBatch.py:86 | after `replace("%j", str(jid))` no "%j" remains |
| StatsName.SubstituteIdentity | dSQBatch.py:86 | replacing "%j" in a text without one leaves it unchanged |
| StatsName.SubstituteKeepsHead | dSQBatch.py:86 | text before the first '%' is copied unchanged |
| StatsName.SubstituteAtFirst | dSQBatch.py:86 | the leftmost "%j" becomes the replacement, and replacing carries on with the text after it; the text before it, stray '%' signs included, is copied |
| StatsName.SubstituteEvery | dSQBatch.py:86 | `replace("%j", rep)` on pieces without "%j", separated by "%j", gives the same pieces separated by `rep`: every occurrence is replaced |
| StatsName.SubstituteOnePlaceholder | dSQBatch.py:86 | a template with exactly one "%j" gets the replacement in its place, and any other '%' is copied |
| StatsName.SuffixAfterPlaceholder | dSQBatch.py:83-84 | a template whose tail follows a "%j" ends in ".tsv" exactly when that tail does |
| StatsName.ResolveOnePlaceholder | dSQBatch.py:83-86 | a template `a%jb` with no "%j" in `a` or `b` resolves to `a`, the job id, then `b` with ".tsv" added only if `b` lacks it |
| StatsName.EnsureSuffix | dSQBatch.py:83-84 | the result ends in ".tsv" and starts with the whole template; it equals the template exactly when the template already ends in ".tsv", and is otherwise exactly the suffix longer, so the whole ".tsv" is appended ("a.ts" becomes "a.ts.tsv") |
| StatsName.EnsureSuffixIdempotent | dSQBatch.py:83-84 | adding the suffix to an already suffixed name changes nothing |
| StatsName.JoinWithSuffix | dSQBatch.py:83-84 | a template of pieces separated by "%j" ends in ".tsv" exactly when its last piece does |
| StatsName.ResolveEveryPlaceholder | dSQBatch.py:83-86 | a template made of pieces without "%j", joined by "%j", resolves to those pieces with `str(jid)` between them and ".tsv" added after the last piece unless it ends so |
| StatsName.TwoPlaceholders | dSQBatch.py:83-86 | "a%jb%j" resolves to "a<jid>b<jid>.tsv" |
| StatsName.DefaultStatsName | dSQBatch.py:83-86 | "job_%j_status.tsv" resolves to "job_<jid>_status.tsv" for every job id |
| StatsName.SuffixThenSubstitute | dSQBatch.py:83-86 | the suffix is checked before substitution, so "foo%j" becomes "foo<jid>.tsv" |
| StatsName.ResolveAsWritten | dSQBatch.py:83-84 | with the default left as a bare string, lines 83-84 raise instead of resolving; a one-element list resolves as intended |
| StatsName.DefaultTemplateAsWritten | dSQBatch.py:66-72 | without `--stats-file` the source raises `TypeError` at line 84, where the intended default names "job_<jid>_status.tsv" |
| StatsRow.FormatTimestamp | dSQBatch.py:121-123 | `strftime("%Y-%m-%d %H:%M:%S")` has 19 characters: digits with '-', ' ' and ':' in their five fixed places |
| StatsRow.TimestampRoundTrip | dSQBatch.py:121-123 | a formatted timestamp reads back to the same date and time |
| StatsRow.FormatElapsed | dSQBatch.py:124 | `"{:.02f}"` of the elapsed time has whole seconds, a point and exactly two digits, with a '-' exactly when it is negative |
| StatsRow.ElapsedRoundTrip | dSQBatch.py:138 | the elapsed field reads back to the elapsed time in hundredths |
| StatsRow.Fields | dSQBatch.py:112-130 | one rendered field per column of `out_cols` |
| StatsRow.FormatRow | dSQBatch.py:137-142 | the row ends with the newline `print` adds |
| StatsRow.FieldsReadBack | dSQBatch.py:125-130 | fields 0 to 6 read back to the task id, exit code, hostname, start, end, elapsed and command, in `out_cols` order; the task id and exit code fields are in canonical form, so they are exactly `str(tid)` and `str(ret)` |
| StatsRow.RowColumns | dSQBatch.py:137-142 | for a hostname without a tab, splitting the row on tabs gives the first six fields exactly and the command as the rest; with no tab in the command either, it gives exactly the seven fields |
| StatsRow.RowIsOneLine | dSQBatch.py:137-142 | a row holds no newline except its last character, given a hostname and command without one |
| StatsRow.RenderedFieldsAvoid | dSQBatch.py:121-124 | numbers and timestamps never contain a tab or a newline |
| RunJob.DiagnosticNamesLineAndFile | dSQBatch.py:99-101 | the diagnostic starts with "# could not find zero-indexed line ", then gives an index that reads back to `tid`, and ends with the job file path |
| RunJob.DiagnosticIsOneLine | dSQBatch.py:99-101 | the diagnostic holds no newline when the job file path holds none |
| RunJob.Run | dSQBatch.py:97-144 | the child is called exactly when the lookup finds a command, and is handed that command; the exit code is its return code, or 1 with the diagnostic printed to standard error and recorded; a row exists exactly when stats are not suppressed, and it renders the task, exit code, host, clock and recorded command |
| RunJob.ExitCodeIsChildReturn | dSQBatch.py:105-108 | when line `tid` exists and is not blank, the child runs that line stripped, and the exit code is its return code unchanged |
| RunJob.NotFoundExitsOne | dSQBatch.py:97-103 | when line `tid` is missing or blank, no child is started, the exit code is 1, and the diagnostic is printed to standard error and is the recorded command |
| RunJob.NotFoundIgnoresChild | dSQBatch.py:97-104 | on a failed lookup the outcome is the same whatever `exec_job` would do |
| RunJob.SuppressOnlyDropsRow | dSQBatch.py:110-144 | suppressing the stats file removes the row and changes nothing else, the exit code included |
| RunJob.CommandIsOneLine | dSQBatch.py:93-101 | the recorded command never holds a newline when the job file path holds none |
| RunJob.OneRowPerInvocation | dSQBatch.py:133-142 | with stats kept, and a hostname and job file path without a newline, an invocation appends exactly one line |
| RunJob.NotFoundStillRecorded | dSQBatch.py:110-142 | a failed lookup still writes a row, with exit code 1 and the diagnostic as the command |
| RunJob.ProcessStatus | dSQBatch.py:144 | the status the parent sees after `sys.exit(ret)` is below 256, congruent to `ret` modulo 256, and equal to `ret` for 0 to 255 |
| RunJob.ThreeLineFile | dSQBatch.py:89-108 | in a three-line job file whose lines hold no '\n' or '\r', task 1 runs the middle line, when it is non-empty with no whitespace at either end, and exits with its return code |
| RunJob.ScenarioSecondLine | dSQBatch.py:89-142 | a middle line "exit 3" is run and recorded as the command, 3 is the exit code, nothing is printed to standard error, and the row is that of task 1 with code 3 and command "exit 3" |
| RunJob.TwoLineFilePastEnd | dSQBatch.py:89-103 | in a two-line job file, any task from 2 up starts no child, exits 1 and records the diagnostic |
| RunJob.ScenarioMissingLine | dSQBatch.py:97-103 | for "echo hi\nexit 3", task 5 starts no child, exits 1, and prints and records the diagnostic naming index 5 |
| RunJob.RunAsWritten | dSQBatch.py:97-103 | as written, a failed lookup ends with exit status 1 and no row, and a found command behaves as intended |
| RunJob.AsWrittenLosesRecord | dSQBatch.py:99-101 | for every missing or blank line with stats kept, the code as written writes no row where the intended behaviour writes one |
| RunJob.AsWrittenMissingLine | dSQBatch.py:99-101 | for task 5 of "echo hi\nexit 3", the code as written writes no row, where the intended row records exit code 1 and the diagnostic naming index 5 |

## Left out

- `exec_job` and `forward_signal_to_child` (lines 17-27) spawn a shell and relay SIGCONT and SIGTERM. They are process and signal behaviour. `exec_job` is the parameter `exec: string -> int`.
- `parse_args` (lines 39-73) is argparse plumbing: help text, the version flag and the `--status-dir` default. The model takes a `Config` of job path, stats template and suppress flag. The `--stats-file` default is modelled only where it breaks (see Findings).
- Reading `SLURM_ARRAY_JOB_ID` and `SLURM_ARRAY_TASK_ID` with `int()` (lines 77-78) is left out. The ids are natural numbers in the model, so a missing or malformed variable, which stops the script, is outside it.
- Negative ids are excluded. `int()` accepts "-1", and the source then runs on: a negative task id matches no line and takes the not-found path, and a negative job id puts "-<n>" in the stats name. Slurm never sets negative ids.
- `platform.node()`, `datetime.now()` and `os.path.join` (lines 81, 98-108, 134) are library calls. Hostname and clock readings are parameters. The stats name is modelled before it is joined to the directory.
- Opening the job file, a job file that cannot be read or decoded (`UnicodeDecodeError` under the locale's encoding), a shell that cannot be spawned, and appending to the stats file (lines 90, 133-136) are I/O. So is what concurrent tasks appending to one file do to each other. The model produces the row text only.
- StatsRow.FormatElapsed: the elapsed time is an integer number of hundredths, not a float rounded by `{:.02f}`. So a negative elapsed time that rounds to zero renders as "0.00", where Python would print "-0.00".
- RunJob.Run: the elapsed time is a third clock reading, not derived from the two timestamps. `DateTime` keeps whole seconds only, as `strftime` shows them, but `et - st` also counts microseconds.
- StatsRow.FormatTimestamp: the year is always padded to four digits. glibc's `%Y` does not pad years below 1000, but `datetime.now()` never returns one.
- Python 2 is not modelled. The script also runs under it (lines 1-2: `#!/bin/env python` and a `__future__` import). There, on POSIX, a lone '\r' in the job file is not a line break, and `str.strip()` removes only " \t\n\r\x0b\x0c", not the other Unicode whitespace. `JobLines.Translate` and `Text.IsSpace` are the Python 3 behaviour.
- RunJob.ProcessStatus: the 8-bit truncation `sys.exit` undergoes is a separate function. `Run` keeps the full `ret`, because the program itself records that value in the row.

## Findings

| source | as written | input that shows it | evidently intended | confidence | as-written member | corrected member |
|---|---|---|---|---|---|---|
| dSQBatch.py:99-101 | the diagnostic is formatted with `job_file`, a name defined nowhere in `run_job`, so it raises `NameError`; the interpreter exits with status 1 and no row is written | any task id past the end of the job file, e.g. task 5 of "echo hi\nexit 3", with stats kept | record "# could not find zero-indexed line 5 in job file <path>" with exit code 1 in the stats row | high (not executed) | RunJob.AsWrittenLosesRecord | RunJob.NotFoundStillRecorded |
| dSQBatch.py:70 | the `--stats-file` default is the bare string "job_%j_status.tsv", while a given value is a one-element list (`nargs=1`); so `args.stats_file[0]` is "j", and line 84 assigns to an item of a string and raises `TypeError` | running without `--stats-file` (lines 83-84 run whether or not stats are suppressed) | the default behaves like `["job_%j_status.tsv"]` and names "job_<jid>_status.tsv" | high (not executed) | StatsName.DefaultTemplateAsWritten | StatsName.DefaultStatsName |

=== FILE: decimal.dfy ===
/** Decimal text for the numbers that end up in the stats file name and the
    stats row: Python's `str(n)` for integers, and fixed-width zero-padded
    fields as `strftime` and `:.02f` produce them. Each rendering comes with
    the parse that reads it back. */
module Decimal {

  predicate IsDigit(c: char) {
    '0' <= c <= '9'
  }

  predicate AllDigits(s: string) {
    forall i :: 0 <= i < |s| ==> IsDigit(s[i])
  }

  /** The form `str(n)` gives a natural number: digits only, no leading zero
      except for "0" itself. */
  predicate Canonical(s: string) {
    |s| > 0 && AllDigits(s) && (|s| > 1 ==> s[0] != '0')
  }

  function Digit(d: nat): (c: char)
    requires d < 10
    ensures IsDigit(c)
  {
    '0' + d as char
  }

  function DigitValue(c: char): (d: nat)
    requires IsDigit(c)
    ensures d < 10
  {
    (c - '0') as nat
  }

  function Pow10(w: nat): (p: nat)
    ensures p >= 1
  {
    if w == 0 then 1 else 10 * Pow10(w - 1)
  }

  /** The value of a string of decimal digits (empty reads as 0). */
  function ParseNat(s: string): nat
    requires AllDigits(s)
  {
    if |s| == 0 then 0 else ParseNat(s[..|s| - 1]) * 10 + DigitValue(s[|s| - 1])
  }

  /** Python's `str(n)` for a non-negative integer. */
  function NatToString(n: nat): (r: string)
    ensures Canonical(r)
  {
    if n < 10 then [Digit(n)] else NatToString(n / 10) + [Digit(n % 10)]
  }

  /** Python's `str(i)` for any integer: a minus sign before the magnitude. */
  function IntToString(i: int): (r: string)
    ensures |r| > 0
    ensures i < 0 <==> r[0] == '-'
    ensures r[0] == '-' ==> Canonical(r[1..])
    ensures r[0] != '-' ==> Canonical(r)
  {
    if i < 0 then "-" + NatToString(-i) else NatToString(i)
  }

  /** Reads back what `IntToString` writes. */
  function ParseInt(s: string): int
    requires |s| > 0
    requires s[0] == '-' ==> AllDigits(s[1..])
    requires s[0] != '-' ==> AllDigits(s)
  {
    if s[0] == '-' then -(ParseNat(s[1..]) as int) else ParseNat(s)
  }

  /** `n` as exactly `w` digits with leading zeros (`%02d`, `%04d`). */
  function Pad(n: nat, w: nat): (r: string)
    requires n < Pow10(w)
    ensures |r| == w && AllDigits(r)
  {
    if w == 0 then "" else Pad(n / 10, w - 1) + [Digit(n % 10)]
  }

  lemma ParseLast(p: string, c: char)
    requires AllDigits(p) && IsDigit(c)
    ensures ParseNat(p + [c]) == ParseNat(p) * 10 + DigitValue(c)
  {
    assert (p + [c])[..|p|] == p;
  }

  lemma {:induction false} NatRoundTrip(n: nat)
    ensures ParseNat(NatToString(n)) == n
  {
    if n >= 10 {
      NatRoundTrip(n / 10);
      ParseLast(NatToString(n / 10), Digit(n % 10));
    }
  }

  lemma {:induction false} ParsePositive(s: string)
    requires |s| > 0 && AllDigits(s) && s[0] != '0'
    ensures ParseNat(s) > 0
    decreases |s|
  {
    if |s| > 1 {
      ParsePositive(s[..|s| - 1]);
    }
  }

  /** `str(n)` is the only canonical spelling of `n`. */
  lemma {:induction false} CanonicalRoundTrip(s: string)
    requires Canonical(s)
    ensures NatToString(ParseNat(s)) == s
    decreases |s|
  {
    if |s| > 1 {
      var p := s[..|s| - 1];
      ParsePositive(p);
      CanonicalRoundTrip(p);
      var n := ParseNat(s);
      assert n / 10 == ParseNat(p) && n % 10 == DigitValue(s[|s| - 1]);
      assert n >= 10;
      assert s == p + [s[|s| - 1]];
    }
  }

  lemma IntRoundTrip(i: int)
    ensures ParseInt(IntToString(i)) == i
  {
    if i < 0 {
      NatRoundTrip(-i);
      assert IntToString(i)[1..] == NatToString(-i);
    } else {
      NatRoundTrip(i);
    }
  }

  lemma {:induction false} PadRoundTrip(n: nat, w: nat)
    requires n < Pow10(w)
    ensures ParseNat(Pad(n, w)) == n
  {
    if w > 0 {
      var q, d := n / 10, n % 10;
      PadStep(n, w);
      PadRoundTrip(q, w - 1);
      ParseLast(Pad(q, w - 1), Digit(d));
      assert DigitValue(Digit(d)) == d;
    }
  }

  /** One step of `Pad`: the last digit, and the shorter field for the rest. */
  lemma PadStep(n: nat, w: nat)
    requires 0 < w && n < Pow10(w)
    ensures n == n / 10 * 10 + n % 10
    ensures n / 10 < Pow10(w - 1)
    ensures Pad(n, w) == Pad(n / 10, w - 1) + [Digit(n % 10)]
  {
    assert n < 10 * Pow10(w - 1);
  }
}

=== FILE: joblines.dfy ===
/** Selecting this task's command from the job file (dSQBatch.py, `run_job`,
    lines 88-97): the file is read in text mode, scanned line by line, and
    the line whose zero-based index equals the task id is stripped of
    surrounding whitespace. The empty string stands for "not found", which
    covers both a missing line and a blank one.

    `Lookup` is the reference definition over `str.split('\n')`; the source's
    actual loop runs over the lines a Python file object yields, which keep
    their terminator. `LookupMatchesFileIteration` shows the two agree and
    `ScanLookup` is the single sequential pass the source performs. */
module JobLines {
  import opened Text

  /** Text-mode reading with universal newlines: "\r\n" and a lone "\r" both
      reach the program as "\n". */
  function Translate(raw: string): (t: string)
    ensures '\r' !in t
    decreases |raw|
  {
    if |raw| == 0 then ""
    else if raw[0] == '\r' then
      "\n" + Translate(if |raw| > 1 && raw[1] == '\n' then raw[2..] else raw[1..])
    else [raw[0]] + Translate(raw[1..])
  }

  /** A file that already uses "\n" alone is read unchanged. */
  lemma {:induction false} TranslateIdentity(raw: string)
    requires '\r' !in raw
    ensures Translate(raw) == raw
    decreases |raw|
  {
    if |raw| > 0 {
      TranslateIdentity(raw[1..]);
      assert [raw[0]] + raw[1..] == raw;
    }
  }

  /** Text up to the first '\r' passes through reading unchanged. */
  lemma {:induction false} TranslateKeepsHead(a: string, rest: string)
    requires '\r' !in a
    ensures Translate(a + rest) == a + Translate(rest)
    decreases |a|
  {
    if |a| > 0 {
      var s := a + rest;
      assert s[0] == a[0] && s[1..] == a[1..] + rest;
      assert a[0] != '\r';
      assert Translate(s) == [a[0]] + Translate(a[1..] + rest);
      TranslateKeepsHead(a[1..], rest);
      assert [a[0]] + (a[1..] + Translate(rest)) == a + Translate(rest);
    } else {
      assert a + rest == rest;
    }
  }

  /** A "\r\n" pair is read as one "\n". */
  lemma TranslateCrLf(a: string, b: string)
    requires '\r' !in a
    ensures Translate(a + "\r\n" + b) == a + "\n" + Translate(b)
  {
    assert a + "\r\n" + b == a + ("\r\n" + b);
    TranslateKeepsHead(a, "\r\n" + b);
    CrLfHead(b);
  }

  lemma CrLfHead(b: string)
    ensures Translate("\r\n" + b) == "\n" + Translate(b)
  {
    var tail := "\r\n" + b;
    assert tail[0] == '\r' && tail[1] == '\n' && tail[2..] == b;
  }

  /** A '\r' not followed by '\n' is read as a "\n" of its own, and the
      character after it is kept. */
  lemma TranslateLoneCr(a: string, b: string)
    requires '\r' !in a
    requires |b| == 0 || b[0] != '\n'
    ensures Translate(a + "\r" + b) == a + "\n" + Translate(b)
  {
    assert a + "\r" + b == a + ("\r" + b);
    TranslateKeepsHead(a, "\r" + b);
    LoneCrHead(b);
  }

  lemma LoneCrHead(b: string)
    requires |b| == 0 || b[0] != '\n'
    ensures Translate("\r" + b) == "\n" + Translate(b)
  {
    var tail := "\r" + b;
    assert tail[0] == '\r' && tail[1..] == b;
    assert !(|tail| > 1 && tail[1] == '\n');
  }

  /** The job text as the list `text.split('\n')`. */
  function SplitLines(text: string): (lines: seq<string>)
    ensures |lines| >= 1
    ensures NoneHolds(lines, '\n')
  {
    SplitAvoidsSep(text, '\n');
    Split(text, '\n')
  }

  /** The command for task `tid`: the stripped line at that zero-based index,
      or "" when there is no such line. */
  function Lookup(text: string, tid: nat): (cmd: string)
    ensures Trimmed(cmd)
    ensures '\n' !in cmd
  {
    var lines := SplitLines(text);
    if tid < |lines| then
      StripChars(lines[tid]);
      Strip(lines[tid])
    else ""
  }

  /** The source's not-found test `mycmd == ""` fires exactly when there is
      no line `tid` or that line is whitespace only. */
  lemma LookupEmptyIff(text: string, tid: nat)
    ensures var lines := SplitLines(text);
      Lookup(text, tid) == "" <==> tid >= |lines| || AllSpace(lines[tid])
  {
  }

  /** With enough lines, lookup returns that line stripped; whatever follows
      line `tid` never affects the result, because the scan stops there. */
  lemma LookupIgnoresLaterLines(prefix: string, rest: string, tid: nat)
    requires tid < |SplitLines(prefix)|
    ensures Lookup(prefix + "\n" + rest, tid) == Strip(SplitLines(prefix)[tid])
  {
    SplitConcat(prefix, '\n', rest);
  }

  /** A job file written as these lines, one per task, with "\n" line ends:
      task `tid` gets its own line back, stripped, and any task past the
      last line gets nothing. */
  lemma LookupJoinedLines(lines: seq<string>, tid: nat)
    requires |lines| >= 1 && NoneHolds(lines, '\n') && NoneHolds(lines, '\r')
    ensures Lookup(Translate(Join(lines, '\n')), tid) == if tid < |lines| then Strip(lines[tid]) else ""
  {
    var text := Join(lines, '\n');
    JoinAvoids(lines, '\n', '\r');
    TranslateIdentity(text);
    SplitJoinExact(lines, '\n');
  }

  /** Line 1 of "l0\nl1\nl2" is `l1`, when `l1` has no surrounding
      whitespace. */
  lemma SecondOfThree(l0: string, l1: string, l2: string)
    requires '\n' !in l0 && '\n' !in l1 && '\n' !in l2
    requires '\r' !in l0 && '\r' !in l1 && '\r' !in l2
    requires Trimmed(l1)
    ensures Lookup(Translate(l0 + "\n" + l1 + "\n" + l2), 1) == l1
  {
    var lines := [l0, l1, l2];
    JoinThree(l0, l1, l2);
    assert NoneHolds(lines, '\n') && NoneHolds(lines, '\r');
    LookupJoinedLines(lines, 1);
    TrimmedIsStripped(l1);
  }

  lemma JoinThree(l0: string, l1: string, l2: string)
    ensures Join([l0, l1, l2], '\n') == l0 + "\n" + l1 + "\n" + l2
  {
    JoinWithThree(l0, l1, l2, "\n");
  }

  // ---------------------------------------------------------------------
  // The lines a Python text file object yields.

  /** Length of the first line of `s`, without its terminator. */
  function LineEnd(s: string): (k: nat)
    ensures k <= |s|
    ensures forall j :: 0 <= j < k ==> s[j] != '\n'
    ensures k < |s| ==> s[k] == '\n'
  {
    if |s| == 0 || s[0] == '\n' then 0 else 1 + LineEnd(s[1..])
  }

  function Concat(ls: seq<string>): string {
    if |ls| == 0 then "" else ls[0] + Concat(ls[1..])
  }

  /** The values `for l in f` produces: each line keeps its "\n", the last
      may lack one, and an empty file yields nothing. */
  function FileLines(s: string): (ls: seq<string>)
    ensures forall i :: 0 <= i < |ls| ==> |ls[i]| > 0
    ensures forall i :: 0 <= i < |ls| - 1 ==> ls[i][|ls[i]| - 1] == '\n'
    decreases |s|
  {
    if |s| == 0 then []
    else
      var k := LineEnd(s);
      if k == |s| then [s] else [s[..k + 1]] + FileLines(s[k + 1..])
  }

  /** Reading every line back to back gives the whole file. */
  lemma {:induction false} FileLinesConcat(s: string)
    ensures Concat(FileLines(s)) == s
    decreases |s|
  {
    if |s| > 0 {
      var k := LineEnd(s);
      if k == |s| {
        assert FileLines(s) == [s];
        assert Concat([s]) == s + Concat([]);
      } else {
        var rest := FileLines(s[k + 1..]);
        assert FileLines(s) == [s[..k + 1]] + rest;
        assert ([s[..k + 1]] + rest)[1..] == rest;
        FileLinesConcat(s[k + 1..]);
        assert Concat(FileLines(s)) == s[..k + 1] + Concat(rest);
        assert s[..k + 1] + s[k + 1..] == s;
      }
    }
  }

  /** The split line at index 0 and the lines after it. */
  lemma {:induction false} SplitFirstLine(s: string)
    ensures LineEnd(s) == |s| ==> SplitLines(s) == [s]
    ensures LineEnd(s) < |s| ==> SplitLines(s) == [s[..LineEnd(s)]] + SplitLines(s[LineEnd(s) + 1..])
  {
    var k := LineEnd(s);
    if k == |s| {
      SplitNoSep(s, '\n');
    } else {
      assert s == s[..k] + ['\n'] + s[k + 1..];
      SplitConcat(s[..k], '\n', s[k + 1..]);
      SplitNoSep(s[..k], '\n');
    }
  }

  /** Line `tid` of the file object is line `tid` of the split, with or
      without its "\n"; past the file object's last line the split has at
      most a final empty piece (the text after a trailing newline). */
  lemma {:induction false} FileLineAt(text: string, tid: nat)
    ensures var files, lines := FileLines(text), SplitLines(text);
      tid < |files| ==> tid < |lines| && (files[tid] == lines[tid] || files[tid] == lines[tid] + "\n")
    ensures var files, lines := FileLines(text), SplitLines(text);
      tid >= |files| ==> tid >= |lines| || lines[tid] == ""
    decreases |text|
  {
    var k := LineEnd(text);
    SplitFirstLine(text);
    if |text| == 0 {
      assert SplitLines(text) == [""];
    } else if k == |text| {
      assert FileLines(text) == [text];
    } else {
      var rest := text[k + 1..];
      var files := FileLines(text);
      var lines := SplitLines(text);
      assert files == [text[..k + 1]] + FileLines(rest);
      if tid == 0 {
        assert files[0] == text[..k] + "\n";
      } else {
        FileLineAt(rest, tid - 1);
        IndexAfterHead(files, text[..k + 1], FileLines(rest), tid);
        IndexAfterHead(lines, text[..k], SplitLines(rest), tid);
      }
    }
  }

  /** The source's loop (strip the line at index `tid` of the file object,
      "" if the file ends first) computes exactly `Lookup`. */
  lemma LookupMatchesFileIteration(text: string, tid: nat)
    ensures (if tid < |FileLines(text)| then Strip(FileLines(text)[tid]) else "") == Lookup(text, tid)
  {
    FileLineAt(text, tid);
    var files, lines := FileLines(text), SplitLines(text);
    if tid < |files| && files[tid] != lines[tid] {
      StripIgnoresTrailingSpace(lines[tid], '\n');
    } else if tid >= |files| && tid < |lines| {
      assert AllSpace(lines[tid]);
    }
  }

  /** Index `tid > 0` of `[x] + ys` is index `tid - 1` of `ys`. */
  lemma IndexAfterHead(xs: seq<string>, x: string, ys: seq<string>, tid: nat)
    requires xs == [x] + ys && tid > 0
    ensures tid < |xs| <==> tid - 1 < |ys|
    ensures tid < |xs| ==> xs[tid] == ys[tid - 1]
  {
  }

  /** Where the first line of a non-empty `s` ends, terminator included. */
  function NextLineStart(s: string): (n: nat)
    requires |s| > 0
    ensures 0 < n <= |s|
  {
    if LineEnd(s) < |s| then LineEnd(s) + 1 else |s|
  }

  /** The file object yields the first line, then the lines of the rest. */
  lemma FileLinesStep(s: string)
    requires |s| > 0
    ensures FileLines(s) == [s[..NextLineStart(s)]] + FileLines(s[NextLineStart(s)..])
  {
    if LineEnd(s) == |s| {
      assert s[..|s|] == s;
      assert FileLines(s[|s|..]) == [];
    }
  }

  /** The first newline at or after `pos` marks where `LineEnd` of the rest
      of the text lies. */
  lemma LineEndAt(text: string, pos: nat, e: nat)
    requires pos <= e <= |text|
    requires forall j :: pos <= j < e ==> text[j] != '\n'
    requires e < |text| ==> text[e] == '\n'
    ensures LineEnd(text[pos..]) == e - pos
  {
  }

  /** Reads forward from `pos` to the next newline or the end of the text;
      the result is where `LineEnd` puts the end of that line. */
  method FindNewline(text: string, pos: nat) returns (e: nat)
    requires pos <= |text|
    ensures pos <= e <= |text|
    ensures e - pos == LineEnd(text[pos..])
  {
    e := pos;
    while e < |text| && text[e] != '\n'
      invariant pos <= e <= |text|
      invariant forall j :: pos <= j < e ==> text[j] != '\n'
    {
      e := e + 1;
    }
    LineEndAt(text, pos, e);
  }

  /** One line of the scan: the file object's line `i` runs from `pos` to
      just past the newline at `e` (or to the end of the text), and the lines
      after it are those of the text that follows. */
  lemma ScanStep(text: string, pos: nat, e: nat, i: nat)
    requires pos < |text| && pos <= e <= |text| && e - pos == LineEnd(text[pos..])
    requires i <= |FileLines(text)| && FileLines(text[pos..]) == FileLines(text)[i..]
    ensures var next := if e < |text| then e + 1 else e;
      && pos < next <= |text| && i < |FileLines(text)|
      && FileLines(text)[i] == text[pos..next]
      && FileLines(text[next..]) == FileLines(text)[i + 1..]
  {
    var next := if e < |text| then e + 1 else e;
    FirstFileLine(text, pos, next);
    SplitOffHead(FileLines(text), i, text[pos..next], FileLines(text[next..]));
  }

  /** The file object's first line from `pos` ends at `next`. */
  lemma FirstFileLine(text: string, pos: nat, next: nat)
    requires pos < next <= |text| && next - pos == NextLineStart(text[pos..])
    ensures FileLines(text[pos..]) == [text[pos..next]] + FileLines(text[next..])
  {
    var rest := text[pos..];
    FileLinesStep(rest);
    assert rest[next - pos..] == text[next..];
    assert rest[..next - pos] == text[pos..next];
  }

  /** If a list from index `i` on is `[x] + ys`, then `x` sits at `i` and
      `ys` follows it. */
  lemma SplitOffHead(xs: seq<string>, i: nat, x: string, ys: seq<string>)
    requires i <= |xs| && xs[i..] == [x] + ys
    ensures i < |xs| && xs[i] == x && xs[i + 1..] == ys
  {
    assert xs[i] == xs[i..][0];
    assert xs[i + 1..] == xs[i..][1..];
  }

  /** One sequential pass over the job text, as the source's
      `for i, l in enumerate(tf)` loop: lines before `tid` are skipped, line
      `tid` is stripped and the scan stops. */
  method ScanLookup(text: string, tid: nat) returns (cmd: string)
    ensures cmd == Lookup(text, tid)
  {
    var pos := 0;
    var i := 0;
    while pos < |text|
      invariant 0 <= pos <= |text|
      invariant i <= tid && i <= |FileLines(text)|
      invariant FileLines(text[pos..]) == FileLines(text)[i..]
    {
      var e := FindNewline(text, pos);
      var next := if e < |text| then e + 1 else e;
      ScanStep(text, pos, e, i);
      if i == tid {
        cmd := Strip(text[pos..next]);
        LookupMatchesFileIteration(text, tid);
        return;
      }
      pos := next;
      i := i + 1;
    }
    assert FileLines(text[pos..]) == [];
    cmd := "";
    LookupMatchesFileIteration(text, tid);
  }
}

=== FILE: runjob.dfy ===
/** One invocation of the task runner (dSQBatch.py, `run_job`, lines 76-144):
    resolve the stats file name, look up this task's command, run it through
    `exec_job` or record a diagnostic when there is none, build at most one
    stats row, and exit with the child's return code or 1.

    What the operating system supplies is passed in: the job file's
    contents, already decoded to text, the hostname, the clock readings, and
    `exec_job` itself as an arbitrary function from command to return code. */
module RunJob {
  import opened Text
  import opened Decimal
  import opened JobLines
  import opened StatsName
  import opened StatsRow

  datatype Option<T> = None | Some(value: T)

  /** The parsed command line the core receives. */
  datatype Config = Config(jobPath: string, statsTemplate: string, suppressStats: bool)

  /** `SLURM_ARRAY_JOB_ID` and `SLURM_ARRAY_TASK_ID`, already parsed. */
  datatype TaskIdentity = TaskIdentity(jobId: nat, taskId: nat)

  /** The readings taken around the child (`st`, `et`), and `et - st` in
      hundredths of a second. */
  datatype Clock = Clock(start: DateTime, end: DateTime, elapsed: int)

  predicate ValidClock(c: Clock) {
    ValidDateTime(c.start) && ValidDateTime(c.end)
  }

  /** What one invocation does that can be observed. */
  datatype Outcome = Outcome(
    statsName: string,         // the resolved stats file name (before the directory join)
    spawned: Option<string>,   // the command handed to `exec_job`; None when it is never called
    command: string,           // `mycmd` as recorded in the row
    exitCode: int,             // `ret`, the argument of `sys.exit`
    stderr: string,            // what `run_job` itself prints to standard error
    row: Option<string>)       // the line appended to the stats file, if any

  const DiagnosticPrefix: string := "# could not find zero-indexed line "
  const DiagnosticMiddle: string := " in job file "

  /** Lines 99-101 as intended: the missing index and the job file path. */
  function Diagnostic(tid: nat, jobPath: string): string {
    DiagnosticPrefix + NatToString(tid) + DiagnosticMiddle + jobPath
  }

  /** The diagnostic starts with the fixed prefix, then names the index in a
      form that reads back to `tid`, and ends with the job file path. */
  lemma DiagnosticNamesLineAndFile(tid: nat, jobPath: string)
    ensures var msg := Diagnostic(tid, jobPath);
      var digits := msg[|DiagnosticPrefix|..|msg| - |DiagnosticMiddle| - |jobPath|];
      && msg[..|DiagnosticPrefix|] == DiagnosticPrefix
      && Canonical(digits) && ParseNat(digits) == tid
      && msg[|msg| - |jobPath|..] == jobPath
  {
    var d := NatToString(tid);
    var msg := Diagnostic(tid, jobPath);
    assert msg == DiagnosticPrefix + (d + (DiagnosticMiddle + jobPath));
    assert msg[|DiagnosticPrefix|..|msg| - |DiagnosticMiddle| - |jobPath|] == d;
    NatRoundTrip(tid);
  }

  /** The whole of `run_job` after the environment has been read. */
  function Run(cfg: Config, jobText: string, id: TaskIdentity, hostname: string, clock: Clock,
               exec: string -> int): (out: Outcome)
    requires ValidClock(clock)
    ensures out.statsName == ResolveStatsName(cfg.statsTemplate, id.jobId)
    ensures out.spawned.Some? <==> Lookup(Translate(jobText), id.taskId) != ""
    ensures out.spawned.Some? ==> out.spawned.value == Lookup(Translate(jobText), id.taskId)
    ensures out.spawned.Some? ==> out.command == out.spawned.value && out.exitCode == exec(out.command)
    ensures out.spawned.None? ==> out.command == Diagnostic(id.taskId, cfg.jobPath) && out.exitCode == 1
    ensures out.spawned.Some? ==> out.stderr == ""
    ensures out.spawned.None? ==> out.stderr == out.command + "\n"
    ensures out.row.Some? <==> !cfg.suppressStats
    ensures out.row.Some? ==>
      out.row.value == FormatRow(Record(id.taskId, out.exitCode, hostname, clock.start, clock.end, clock.elapsed, out.command))
  {
    var name := ResolveStatsName(cfg.statsTemplate, id.jobId);
    var mycmd := Lookup(Translate(jobText), id.taskId);
    var spawned := if mycmd == "" then None else Some(mycmd);
    var cmd := if mycmd == "" then Diagnostic(id.taskId, cfg.jobPath) else mycmd;
    var ret := if mycmd == "" then 1 else exec(mycmd);
    var err := if mycmd == "" then cmd + "\n" else "";
    var row := if cfg.suppressStats then None
      else Some(FormatRow(Record(id.taskId, ret, hostname, clock.start, clock.end, clock.elapsed, cmd)));
    Outcome(name, spawned, cmd, ret, err, row)
  }

  /** When line `tid` exists and is not blank, the child runs that line,
      stripped, and its return code is the exit code unchanged. */
  lemma ExitCodeIsChildReturn(cfg: Config, jobText: string, id: TaskIdentity, hostname: string,
                              clock: Clock, exec: string -> int)
    requires ValidClock(clock)
    requires var lines := SplitLines(Translate(jobText));
      id.taskId < |lines| && !AllSpace(lines[id.taskId])
    ensures var cmd := Strip(SplitLines(Translate(jobText))[id.taskId]);
      var out := Run(cfg, jobText, id, hostname, clock, exec);
      out.spawned == Some(cmd) && out.exitCode == exec(cmd) && out.command == cmd
  {
  }

  /** When there is no line `tid`, or it is blank, the child is never
      started, the exit code is 1, and the diagnostic is both printed to
      standard error and recorded. */
  lemma NotFoundExitsOne(cfg: Config, jobText: string, id: TaskIdentity, hostname: string,
                         clock: Clock, exec: string -> int)
    requires ValidClock(clock)
    requires var lines := SplitLines(Translate(jobText));
      id.taskId >= |lines| || AllSpace(lines[id.taskId])
    ensures var out := Run(cfg, jobText, id, hostname, clock, exec);
      && out.spawned == None && out.exitCode == 1 && out.command == Diagnostic(id.taskId, cfg.jobPath)
      && out.stderr == Diagnostic(id.taskId, cfg.jobPath) + "\n"
  {
    LookupEmptyIff(Translate(jobText), id.taskId);
  }

  /** On a failed lookup nothing depends on the child: any two `exec_job`
      oracles give the same outcome. */
  lemma NotFoundIgnoresChild(cfg: Config, jobText: string, id: TaskIdentity, hostname: string,
                             clock: Clock, exec1: string -> int, exec2: string -> int)
    requires ValidClock(clock)
    requires Lookup(Translate(jobText), id.taskId) == ""
    ensures Run(cfg, jobText, id, hostname, clock, exec1) == Run(cfg, jobText, id, hostname, clock, exec2)
  {
  }

  /** Suppressing the stats file removes the row and changes nothing else,
      in particular not the exit code. */
  lemma SuppressOnlyDropsRow(cfg: Config, jobText: string, id: TaskIdentity, hostname: string,
                             clock: Clock, exec: string -> int)
    requires ValidClock(clock)
    ensures var quiet := Run(cfg.(suppressStats := true), jobText, id, hostname, clock, exec);
      var loud := Run(cfg.(suppressStats := false), jobText, id, hostname, clock, exec);
      quiet == loud.(row := None) && loud.row.Some?
  {
  }

  /** The recorded command never holds a newline when the job file path
      holds none. */
  lemma CommandIsOneLine(cfg: Config, jobText: string, id: TaskIdentity, hostname: string,
                         clock: Clock, exec: string -> int)
    requires ValidClock(clock) && '\n' !in cfg.jobPath
    ensures '\n' !in Run(cfg, jobText, id, hostname, clock, exec).command
  {
    DiagnosticIsOneLine(id.taskId, cfg.jobPath);
  }

  lemma DiagnosticIsOneLine(tid: nat, jobPath: string)
    requires '\n' !in jobPath
    ensures '\n' !in Diagnostic(tid, jobPath)
  {
    var d := NatToString(tid);
    DigitsAvoid(d, '\n');
    assert '\n' !in DiagnosticPrefix && '\n' !in DiagnosticMiddle;
  }

  /** When stats are kept, the invocation appends exactly one line: the row
      ends in its only newline, given a hostname and job path without one. */
  lemma OneRowPerInvocation(cfg: Config, jobText: string, id: TaskIdentity, hostname: string,
                            clock: Clock, exec: string -> int)
    requires ValidClock(clock) && !cfg.suppressStats
    requires '\n' !in hostname && '\n' !in cfg.jobPath
    ensures var out := Run(cfg, jobText, id, hostname, clock, exec);
      && out.row.Some?
      && var row := out.row.value;
      && |row| > 0 && row[|row| - 1] == '\n' && '\n' !in row[..|row| - 1]
  {
    var out := Run(cfg, jobText, id, hostname, clock, exec);
    CommandIsOneLine(cfg, jobText, id, hostname, clock, exec);
    RowIsOneLine(Record(id.taskId, out.exitCode, hostname, clock.start, clock.end, clock.elapsed, out.command));
  }

  /** A failed lookup is still recorded, with exit code 1, unless stats
      are suppressed. */
  lemma NotFoundStillRecorded(cfg: Config, jobText: string, id: TaskIdentity, hostname: string,
                              clock: Clock, exec: string -> int)
    requires ValidClock(clock) && !cfg.suppressStats
    requires Lookup(Translate(jobText), id.taskId) == ""
    ensures var out := Run(cfg, jobText, id, hostname, clock, exec);
      out.row == Some(FormatRow(Record(id.taskId, 1, hostname, clock.start, clock.end, clock.elapsed,
                                       Diagnostic(id.taskId, cfg.jobPath))))
  {
  }

  /** The status the parent process sees after `sys.exit(ret)`: POSIX keeps
      the low eight bits, so a child killed by signal N (return code -N)
      shows as 256 - N. */
  function ProcessStatus(ret: int): (status: nat)
    ensures status < 256
    ensures (status - ret) % 256 == 0
    ensures 0 <= ret < 256 ==> status == ret
  {
    ret % 256
  }

  // ---------------------------------------------------------------------
  // Concrete runs.

  /** A job file of three lines, read with "\n" line ends: task 1 runs the
      middle line, and its return code is the exit code. */
  lemma ThreeLineFile(l0: string, l1: string, l2: string, jobText: string, cfg: Config, id: TaskIdentity,
                      hostname: string, clock: Clock, exec: string -> int)
    requires jobText == l0 + "\n" + l1 + "\n" + l2
    requires ValidClock(clock) && id.taskId == 1
    requires '\n' !in l0 && '\n' !in l1 && '\n' !in l2
    requires '\r' !in l0 && '\r' !in l1 && '\r' !in l2
    requires l1 != "" && Trimmed(l1)
    ensures var out := Run(cfg, jobText, id, hostname, clock, exec);
      out.spawned == Some(l1) && out.exitCode == exec(l1)
  {
    SecondOfThree(l0, l1, l2);
    assert Lookup(Translate(jobText), 1) == l1;
  }

  /** Task 1 of a three-line job file whose middle line is "exit 3": the
      child runs "exit 3", and its code 3 is both recorded and returned. */
  lemma ScenarioSecondLine(l0: string, l2: string, jobText: string, cfg: Config, id: TaskIdentity,
                           hostname: string, clock: Clock, exec: string -> int)
    requires jobText == l0 + "\nexit 3\n" + l2
    requires '\n' !in l0 && '\n' !in l2 && '\r' !in l0 && '\r' !in l2
    requires ValidClock(clock) && id.taskId == 1 && exec("exit 3") == 3
    ensures var out := Run(cfg, jobText, id, hostname, clock, exec);
      && out.spawned == Some("exit 3") && out.command == "exit 3" && out.exitCode == 3
      && out.stderr == ""
      && out.row == if cfg.suppressStats then None
         else Some(FormatRow(Record(1, 3, hostname, clock.start, clock.end, clock.elapsed, "exit 3")))
  {
    assert jobText == l0 + "\n" + "exit 3" + "\n" + l2;
    ThreeLineFile(l0, "exit 3", l2, jobText, cfg, id, hostname, clock, exec);
  }

  /** A job file of two lines, read with "\n" line ends: any task id past
      them finds nothing. */
  lemma TwoLineFilePastEnd(l0: string, l1: string, jobText: string, cfg: Config, id: TaskIdentity,
                           hostname: string, clock: Clock, exec: string -> int)
    requires jobText == l0 + "\n" + l1
    requires ValidClock(clock) && id.taskId >= 2
    requires '\n' !in l0 && '\n' !in l1 && '\r' !in l0 && '\r' !in l1
    ensures var out := Run(cfg, jobText, id, hostname, clock, exec);
      out.spawned == None && out.exitCode == 1 && out.command == Diagnostic(id.taskId, cfg.jobPath)
  {
    var lines := [l0, l1];
    assert lines[1..] == [l1];
    assert JoinWith(lines, "\n") == l0 + "\n" + JoinWith([l1], "\n");
    assert Join(lines, '\n') == jobText;
    LookupJoinedLines(lines, id.taskId);
  }

  /** Two commands, task 5: no child, exit code 1, and the recorded command
      is the diagnostic naming index 5 and the job file. */
  lemma ScenarioMissingLine(cfg: Config, jobText: string, id: TaskIdentity, hostname: string, clock: Clock,
                            exec: string -> int)
    requires jobText == "echo hi\nexit 3"
    requires ValidClock(clock) && id.taskId == 5
    ensures var out := Run(cfg, jobText, id, hostname, clock, exec);
      && out.spawned == None && out.exitCode == 1 && out.command == Diagnostic(5, cfg.jobPath)
      && out.stderr == Diagnostic(5, cfg.jobPath) + "\n"
  {
    assert jobText == "echo hi" + "\n" + "exit 3";
    TwoLineFilePastEnd("echo hi", "exit 3", jobText, cfg, id, hostname, clock, exec);
  }

  // ---------------------------------------------------------------------
  // The not-found branch as the source writes it.

  /** `run_job` as written: line 100 names `job_file`, which is not defined
      in the function, so a failed lookup raises `NameError` before the
      diagnostic is built. The interpreter then exits with status 1, the
      row is never written and `mycmd` stays "". The traceback the
      interpreter prints is not `run_job`'s own output, so `stderr` is "". */
  function RunAsWritten(cfg: Config, jobText: string, id: TaskIdentity, hostname: string, clock: Clock,
                        exec: string -> int): (out: Outcome)
    requires ValidClock(clock)
    ensures Lookup(Translate(jobText), id.taskId) != "" ==> out == Run(cfg, jobText, id, hostname, clock, exec)
    ensures Lookup(Translate(jobText), id.taskId) == "" ==> out.row == None && out.exitCode == 1
  {
    var mycmd := Lookup(Translate(jobText), id.taskId);
    if mycmd == "" then
      Outcome(ResolveStatsName(cfg.statsTemplate, id.jobId), None, mycmd, 1, "", None)
    else Run(cfg, jobText, id, hostname, clock, exec)
  }

  /** The defect shows on any failed lookup with stats kept: the source as
      written loses the record that the intended behaviour writes. */
  lemma AsWrittenLosesRecord(cfg: Config, jobText: string, id: TaskIdentity, hostname: string, clock: Clock,
                             exec: string -> int)
    requires ValidClock(clock) && !cfg.suppressStats
    requires Lookup(Translate(jobText), id.taskId) == ""
    ensures RunAsWritten(cfg, jobText, id, hostname, clock, exec).row == None
    ensures Run(cfg, jobText, id, hostname, clock, exec).row.Some?
  {
  }

  /** Task 5 of "echo hi\nexit 3" is such an input: as written no row is
      written, where the intended row records the diagnostic with exit
      code 1. */
  lemma AsWrittenMissingLine(cfg: Config, jobText: string, id: TaskIdentity, hostname: string, clock: Clock,
                             exec: string -> int)
    requires jobText == "echo hi\nexit 3"
    requires ValidClock(clock) && !cfg.suppressStats && id.taskId == 5
    ensures RunAsWritten(cfg, jobText, id, hostname, clock, exec).row == None
    ensures Run(cfg, jobText, id, hostname, clock, exec).row
      == Some(FormatRow(Record(5, 1, hostname, clock.start, clock.end, clock.elapsed, Diagnostic(5, cfg.jobPath))))
  {
    ScenarioMissingLine(cfg, jobText, id, hostname, clock, exec);
  }
}

=== FILE: statsname.dfy ===
/** The stats file name (dSQBatch.py, `run_job`, lines 83-86): ".tsv" is
    appended unless the template already ends with it, and then every "%j"
    is replaced by the decimal array job id, scanning left to right as
    Python's `str.replace` does. The directory it is joined to is opaque. */
module StatsName {
  import opened Decimal
  import opened Text

  const Suffix: string := ".tsv"

  /** The `--stats-file` default (dSQBatch.py line 70). */
  const DefaultTemplate: string := "job_%j_status.tsv"

  predicate EndsWith(s: string, suffix: string) {
    |suffix| <= |s| && s[|s| - |suffix|..] == suffix
  }

  /** Line 83-84: `if not name.endswith(suffix): name += suffix`. */
  function EnsureSuffix(s: string, suffix: string): (r: string)
    ensures EndsWith(r, suffix)
    ensures |s| <= |r| && r[..|s|] == s
    ensures EndsWith(s, suffix) <==> r == s
    ensures !EndsWith(s, suffix) ==> |r| == |s| + |suffix|
  {
    if EndsWith(s, suffix) then s else s + suffix
  }

  /** Adding the suffix a second time changes nothing. */
  lemma EnsureSuffixIdempotent(s: string, suffix: string)
    ensures EnsureSuffix(EnsureSuffix(s, suffix), suffix) == EnsureSuffix(s, suffix)
  {
  }

  /** No "%j" occurs anywhere in `s`. */
  predicate NoPlaceholder(s: string) {
    forall i :: 0 <= i < |s| - 1 ==> !(s[i] == '%' && s[i + 1] == 'j')
  }

  /** Line 86: `s.replace("%j", rep)`, leftmost occurrences first, never
      rescanning replaced text. */
  function Substitute(s: string, rep: string): string
    decreases |s|
  {
    if |s| < 2 then s
    else if s[0] == '%' && s[1] == 'j' then rep + Substitute(s[2..], rep)
    else [s[0]] + Substitute(s[1..], rep)
  }

  /** A replacement that cannot itself complete or start a "%j": the
      decimal job id is one. */
  predicate Inert(rep: string) {
    |rep| > 0 && '%' !in rep && rep[0] != 'j'
  }

  /** The resolved stats file name for a template and an array job id. */
  function ResolveStatsName(template: string, jid: nat): (name: string)
    ensures EndsWith(name, Suffix)
    ensures NoPlaceholder(name)
    ensures EndsWith(template, Suffix) ==> name == Substitute(template, NatToString(jid))
    ensures NoPlaceholder(template) ==> name == EnsureSuffix(template, Suffix)
    ensures name == JoinWith(SuffixLast(Pieces(template)), NatToString(jid))
  {
    SubstitutedSuffixFacts(template, NatToString(jid));
    PiecesJoin(template);
    PiecesAvoidPlaceholder(template);
    SubstituteSuffixedPieces(Pieces(template), NatToString(jid));
    Substitute(EnsureSuffix(template, Suffix), NatToString(jid))
  }

  lemma SubstitutedSuffixFacts(template: string, rep: string)
    requires Canonical(rep)
    ensures var name := Substitute(EnsureSuffix(template, Suffix), rep);
      && EndsWith(name, Suffix)
      && NoPlaceholder(name)
      && (NoPlaceholder(template) ==> name == EnsureSuffix(template, Suffix))
  {
    DigitsAreInert(rep);
    var withSuffix := EnsureSuffix(template, Suffix);
    var stem := withSuffix[..|withSuffix| - |Suffix|];
    assert withSuffix == stem + Suffix;
    SubstituteKeepsTail(stem, Suffix, rep);
    SubstituteRemovesPlaceholders(withSuffix, rep);
    if NoPlaceholder(template) {
      if !EndsWith(template, Suffix) {
        NoPlaceholderConcat(template, Suffix);
      }
      SubstituteIdentity(withSuffix, rep);
    }
  }

  lemma DigitsAreInert(rep: string)
    requires Canonical(rep)
    ensures Inert(rep)
  {
    assert IsDigit(rep[0]);
  }

  /** Gluing two placeholder-free strings creates a "%j" only across the seam. */
  lemma NoPlaceholderConcat(x: string, y: string)
    requires NoPlaceholder(x) && NoPlaceholder(y)
    requires !(|x| > 0 && |y| > 0 && x[|x| - 1] == '%' && y[0] == 'j')
    ensures NoPlaceholder(x + y)
  {
    var s := x + y;
    forall i | 0 <= i < |s| - 1
      ensures !(s[i] == '%' && s[i + 1] == 'j')
    {
      if i + 1 < |x| {
        assert s[i] == x[i] && s[i + 1] == x[i + 1];
      } else if i >= |x| {
        assert s[i] == y[i - |x|] && s[i + 1] == y[i + 1 - |x|];
      }
    }
  }

  /** The first character of a substitution comes from the input or from the
      replacement. */
  lemma SubstituteHead(s: string, rep: string)
    requires |s| > 0 && |rep| > 0
    ensures |Substitute(s, rep)| > 0
    ensures Substitute(s, rep)[0] == s[0] || Substitute(s, rep)[0] == rep[0]
  {
  }

  /** With an inert replacement no "%j" survives substitution. */
  lemma {:induction false} SubstituteRemovesPlaceholders(s: string, rep: string)
    requires Inert(rep)
    ensures NoPlaceholder(Substitute(s, rep))
    decreases |s|
  {
    if |s| >= 2 {
      if s[0] == '%' && s[1] == 'j' {
        SubstituteRemovesPlaceholders(s[2..], rep);
        assert NoPlaceholder(rep);
        NoPlaceholderConcat(rep, Substitute(s[2..], rep));
      } else {
        SubstituteRemovesPlaceholders(s[1..], rep);
        SubstituteHead(s[1..], rep);
        NoPlaceholderConcat([s[0]], Substitute(s[1..], rep));
      }
    }
  }

  /** A template without "%j" is left as it is. */
  lemma {:induction false} SubstituteIdentity(s: string, rep: string)
    requires NoPlaceholder(s)
    ensures Substitute(s, rep) == s
    decreases |s|
  {
    if |s| >= 2 {
      assert !(s[0] == '%' && s[1] == 'j');
      SubstituteIdentity(s[1..], rep);
      assert [s[0]] + s[1..] == s;
    }
  }

  /** A tail with no '%' that does not start with 'j' passes through
      substitution untouched, whatever precedes it. */
  lemma {:induction false} SubstituteKeepsTail(a: string, t: string, rep: string)
    requires '%' !in t && (|t| > 0 ==> t[0] != 'j')
    ensures Substitute(a + t, rep) == Substitute(a, rep) + t
    decreases |a|
  {
    var s := a + t;
    if |a| == 0 {
      assert s == t;
      SubstituteIdentity(t, rep);
    } else if |t| == 0 {
      assert s == a;
    } else if |a| == 1 {
      assert s[0] == a[0] && s[1] == t[0] && s[1..] == t;
      SubstituteIdentity(t, rep);
      assert Substitute(s, rep) == [a[0]] + t;
    } else if a[0] == '%' && a[1] == 'j' {
      assert s[0] == '%' && s[1] == 'j' && s[2..] == a[2..] + t;
      SubstituteKeepsTail(a[2..], t, rep);
      assert Substitute(s, rep) == rep + (Substitute(a[2..], rep) + t);
    } else {
      assert s[0] == a[0] && s[1] == a[1] && s[1..] == a[1..] + t;
      SubstituteKeepsTail(a[1..], t, rep);
      assert Substitute(s, rep) == [a[0]] + (Substitute(a[1..], rep) + t);
    }
  }

  /** Text before the first '%' is copied unchanged. */
  lemma {:induction false} SubstituteKeepsHead(a: string, b: string, rep: string)
    requires '%' !in a
    ensures Substitute(a + b, rep) == a + Substitute(b, rep)
    decreases |a|
  {
    var s := a + b;
    if |a| == 0 {
      assert s == b;
    } else if |s| < 2 {
      assert b == [] && s == a;
      SubstituteIdentity(a, rep);
    } else {
      assert s[0] == a[0] && s[1..] == a[1..] + b;
      SubstituteKeepsHead(a[1..], b, rep);
      assert Substitute(s, rep) == [a[0]] + (a[1..] + Substitute(b, rep));
      assert [a[0]] + a[1..] == a;
    }
  }

  /** A template with exactly one "%j" gets the replacement in its place;
      any other '%' in it is copied unchanged. */
  lemma SubstituteOnePlaceholder(a: string, b: string, rep: string)
    requires NoPlaceholder(a) && NoPlaceholder(b)
    ensures Substitute(a + "%j" + b, rep) == a + rep + b
  {
    SubstituteAtFirst(a, b, rep);
    SubstituteIdentity(b, rep);
  }

  /** The leftmost "%j" becomes the replacement, and substitution carries on
      after it: the step `str.replace` repeats for every occurrence. A '%'
      that does not open a "%j" (a stray "%a", or a '%' right before the
      "%j") is copied. */
  lemma {:induction false} SubstituteAtFirst(a: string, b: string, rep: string)
    requires NoPlaceholder(a)
    ensures Substitute(a + "%j" + b, rep) == a + rep + Substitute(b, rep)
    decreases |a|
  {
    var s := a + "%j" + b;
    if |a| == 0 {
      assert s == "%j" + b;
      assert s[0] == '%' && s[1] == 'j' && s[2..] == b;
    } else {
      assert s[0] == a[0];
      assert s[1] == (if |a| > 1 then a[1] else '%');
      assert !(s[0] == '%' && s[1] == 'j');
      assert s[1..] == a[1..] + "%j" + b;
      assert NoPlaceholder(a[1..]) by {
        forall i | 0 <= i < |a| - 2
          ensures !(a[1..][i] == '%' && a[1..][i + 1] == 'j')
        {
          assert a[1..][i] == a[i + 1] && a[1..][i + 1] == a[i + 2];
        }
      }
      SubstituteAtFirst(a[1..], b, rep);
      assert [a[0]] + (a[1..] + rep + Substitute(b, rep)) == a + rep + Substitute(b, rep);
    }
  }

  /** A text without '%' holds no "%j". */
  lemma PercentFree(s: string)
    requires '%' !in s
    ensures NoPlaceholder(s)
  {
  }

  /** No piece holds a "%j". */
  predicate PlaceholderFree(parts: seq<string>) {
    forall i :: 0 <= i < |parts| ==> NoPlaceholder(parts[i])
  }

  /** `t.split("%j")`: the text between consecutive leftmost occurrences of
      "%j". */
  function Pieces(t: string): (parts: seq<string>)
    ensures |parts| >= 1
    ensures |t| > 0 && |parts[0]| > 0 ==> parts[0][0] == t[0]
    decreases |t|
  {
    if |t| < 2 then [t]
    else if t[0] == '%' && t[1] == 'j' then [""] + Pieces(t[2..])
    else
      var rest := Pieces(t[1..]);
      [[t[0]] + rest[0]] + rest[1..]
  }

  lemma JoinWithConsHead(c: char, rest: seq<string>, sep: string)
    requires |rest| >= 1
    ensures JoinWith([[c] + rest[0]] + rest[1..], sep) == [c] + JoinWith(rest, sep)
  {
    var parts := [[c] + rest[0]] + rest[1..];
    if |rest| > 1 {
      assert parts[0] == [c] + rest[0] && parts[1..] == rest[1..];
      assert [c] + rest[0] + sep + JoinWith(rest[1..], sep) == [c] + (rest[0] + sep + JoinWith(rest[1..], sep));
    } else {
      assert parts == [[c] + rest[0]];
    }
  }

  /** Joining the pieces back with "%j" restores the template. */
  lemma {:induction false} PiecesJoin(t: string)
    ensures JoinWith(Pieces(t), "%j") == t
    decreases |t|
  {
    if |t| >= 2 {
      if t[0] == '%' && t[1] == 'j' {
        var rest := Pieces(t[2..]);
        PiecesJoin(t[2..]);
        assert ([""] + rest)[0] == "" && ([""] + rest)[1..] == rest;
        assert t == "" + "%j" + t[2..];
      } else {
        var rest := Pieces(t[1..]);
        PiecesJoin(t[1..]);
        JoinWithConsHead(t[0], rest, "%j");
        assert [t[0]] + t[1..] == t;
      }
    }
  }

  /** No piece holds a "%j": they are cut at every occurrence. */
  lemma {:induction false} PiecesAvoidPlaceholder(t: string)
    ensures PlaceholderFree(Pieces(t))
    decreases |t|
  {
    var parts := Pieces(t);
    if |t| < 2 {
      assert parts == [t];
      assert NoPlaceholder(t);
    } else if t[0] == '%' && t[1] == 'j' {
      var rest := Pieces(t[2..]);
      PiecesAvoidPlaceholder(t[2..]);
      assert parts == [""] + rest;
      forall i | 0 <= i < |parts|
        ensures NoPlaceholder(parts[i])
      {
        if i > 0 {
          assert parts[i] == rest[i - 1];
        }
      }
    } else {
      var rest := Pieces(t[1..]);
      PiecesAvoidPlaceholder(t[1..]);
      assert NoPlaceholder(rest[0]);
      assert |rest[0]| > 0 ==> rest[0][0] == t[1];
      NoPlaceholderConcat([t[0]], rest[0]);
      assert parts == [[t[0]] + rest[0]] + rest[1..];
      forall i | 0 <= i < |parts|
        ensures NoPlaceholder(parts[i])
      {
        if i > 0 {
          assert parts[i] == rest[i];
        }
      }
    }
  }

  /** A text without "%j" is a single piece. */
  lemma {:induction false} PiecesOfPlain(a: string)
    requires NoPlaceholder(a)
    ensures Pieces(a) == [a]
    decreases |a|
  {
    if |a| >= 2 {
      assert !(a[0] == '%' && a[1] == 'j');
      assert NoPlaceholder(a[1..]) by {
        forall i | 0 <= i < |a| - 2
          ensures !(a[1..][i] == '%' && a[1..][i + 1] == 'j')
        {
          assert a[1..][i] == a[i + 1] && a[1..][i + 1] == a[i + 2];
        }
      }
      PiecesOfPlain(a[1..]);
      assert [a[0]] + a[1..] == a;
    }
  }

  /** The split cuts at the leftmost "%j" and carries on after it. */
  lemma {:induction false} PiecesAtFirst(a: string, b: string)
    requires NoPlaceholder(a)
    ensures Pieces(a + "%j" + b) == [a] + Pieces(b)
    decreases |a|
  {
    var s := a + "%j" + b;
    if |a| == 0 {
      assert s == "%j" + b;
      assert s[0] == '%' && s[1] == 'j' && s[2..] == b;
    } else {
      assert s[0] == a[0];
      assert s[1] == (if |a| > 1 then a[1] else '%');
      assert !(s[0] == '%' && s[1] == 'j');
      assert s[1..] == a[1..] + "%j" + b;
      assert NoPlaceholder(a[1..]) by {
        forall i | 0 <= i < |a| - 2
          ensures !(a[1..][i] == '%' && a[1..][i + 1] == 'j')
        {
          assert a[1..][i] == a[i + 1] && a[1..][i + 1] == a[i + 2];
        }
      }
      PiecesAtFirst(a[1..], b);
      var rest := Pieces(s[1..]);
      assert rest[0] == a[1..] && rest[1..] == Pieces(b);
      assert [a[0]] + a[1..] == a;
    }
  }

  /** Splitting pieces joined by "%j" gives them back, when none of them
      holds a "%j". */
  lemma {:induction false} PiecesOfJoin(parts: seq<string>)
    requires |parts| >= 1 && PlaceholderFree(parts)
    ensures Pieces(JoinWith(parts, "%j")) == parts
    decreases |parts|
  {
    if |parts| == 1 {
      PiecesOfPlain(parts[0]);
    } else {
      assert NoPlaceholder(parts[0]);
      PiecesAtFirst(parts[0], JoinWith(parts[1..], "%j"));
      assert PlaceholderFree(parts[1..]) by {
        forall i | 0 <= i < |parts| - 1
          ensures NoPlaceholder(parts[1..][i])
        {
          assert parts[1..][i] == parts[i + 1];
        }
      }
      PiecesOfJoin(parts[1..]);
      assert [parts[0]] + parts[1..] == parts;
    }
  }

  /** Every "%j" is replaced: a template made of pieces without "%j",
      separated by "%j", becomes the same pieces separated by the
      replacement. */
  lemma {:induction false} SubstituteEvery(parts: seq<string>, rep: string)
    requires |parts| >= 1 && PlaceholderFree(parts)
    ensures Substitute(JoinWith(parts, "%j"), rep) == JoinWith(parts, rep)
    decreases |parts|
  {
    if |parts| == 1 {
      SubstituteIdentity(parts[0], rep);
    } else {
      assert NoPlaceholder(parts[0]);
      SubstituteAtFirst(parts[0], JoinWith(parts[1..], "%j"), rep);
      assert PlaceholderFree(parts[1..]) by {
        forall i | 0 <= i < |parts| - 1
          ensures NoPlaceholder(parts[1..][i])
        {
          assert parts[1..][i] == parts[i + 1];
        }
      }
      SubstituteEvery(parts[1..], rep);
    }
  }

  /** Appending to the joined text appends to its last piece. */
  lemma {:induction false} JoinWithAppend(parts: seq<string>, sep: string, x: string)
    requires |parts| >= 1
    ensures JoinWith(parts, sep) + x == JoinWith(parts[..|parts| - 1] + [parts[|parts| - 1] + x], sep)
    decreases |parts|
  {
    var n := |parts|;
    var moved := parts[..n - 1] + [parts[n - 1] + x];
    if n > 1 {
      JoinWithAppend(parts[1..], sep, x);
      assert moved[0] == parts[0];
      assert moved[1..] == parts[1..][..n - 2] + [parts[1..][n - 2] + x];
    }
  }

  /** The joined text ends in ".tsv" exactly when its last piece does. */
  lemma {:induction false} JoinWithSuffix(parts: seq<string>)
    requires |parts| >= 1
    ensures EndsWith(JoinWith(parts, "%j"), Suffix) <==> EndsWith(parts[|parts| - 1], Suffix)
    decreases |parts|
  {
    if |parts| > 1 {
      SuffixAfterPlaceholder(parts[0], JoinWith(parts[1..], "%j"));
      JoinWithSuffix(parts[1..]);
    }
  }

  /** The pieces with ".tsv" added to the last one unless it ends so. */
  function SuffixLast(parts: seq<string>): seq<string>
    requires |parts| >= 1
  {
    parts[..|parts| - 1] + [EnsureSuffix(parts[|parts| - 1], Suffix)]
  }

  /** Suffixing and then replacing every "%j" in pieces joined by "%j" gives
      the pieces, the last one suffixed, joined by the replacement. */
  lemma SubstituteSuffixedPieces(parts: seq<string>, rep: string)
    requires |parts| >= 1 && PlaceholderFree(parts)
    ensures Substitute(EnsureSuffix(JoinWith(parts, "%j"), Suffix), rep) == JoinWith(SuffixLast(parts), rep)
  {
    var n := |parts|;
    var suffixed := SuffixLast(parts);
    JoinWithSuffix(parts);
    if EndsWith(parts[n - 1], Suffix) {
      assert suffixed == parts;
    } else {
      JoinWithAppend(parts, "%j", Suffix);
      PercentFree(Suffix);
      assert NoPlaceholder(parts[n - 1]);
      NoPlaceholderConcat(parts[n - 1], Suffix);
    }
    assert PlaceholderFree(suffixed) by {
      forall i | 0 <= i < n
        ensures NoPlaceholder(suffixed[i])
      {
        if i < n - 1 {
          assert suffixed[i] == parts[i];
        }
      }
    }
    SubstituteEvery(suffixed, rep);
  }

  /** The stats name of a template cut at its "%j"s: the pieces with the job
      id between them, and ".tsv" after the last piece unless it already
      ends so. */
  lemma ResolveEveryPlaceholder(parts: seq<string>, jid: nat)
    requires |parts| >= 1 && PlaceholderFree(parts)
    ensures ResolveStatsName(JoinWith(parts, "%j"), jid) == JoinWith(SuffixLast(parts), NatToString(jid))
  {
    PiecesOfJoin(parts);
  }

  /** "a%jb%j" resolves to "a<jid>b<jid>.tsv". */
  lemma TwoPlaceholders(jid: nat)
    ensures ResolveStatsName("a%jb%j", jid) == "a" + NatToString(jid) + "b" + NatToString(jid) + ".tsv"
  {
    var parts := ["a", "b", ""];
    JoinWithThree("a", "b", "", "%j");
    assert "a" + "%j" + "b" + "%j" + "" == "a%jb%j";
    assert !EndsWith("", Suffix) && EnsureSuffix("", Suffix) == ".tsv";
    assert SuffixLast(parts) == ["a", "b", ".tsv"];
    PercentFree("a");
    PercentFree("b");
    PercentFree("");
    assert PlaceholderFree(parts);
    ResolveEveryPlaceholder(parts, jid);
    assert JoinWith(parts, "%j") == "a%jb%j";
    assert ResolveStatsName("a%jb%j", jid) == JoinWith(["a", "b", ".tsv"], NatToString(jid));
    JoinWithThree("a", "b", ".tsv", NatToString(jid));
  }

  /** After a "%j", the template ends in ".tsv" exactly when the tail after
      it does: otherwise the 'j' would have to sit inside the suffix. */
  lemma SuffixAfterPlaceholder(a: string, b: string)
    ensures EndsWith(a + "%j" + b, Suffix) <==> EndsWith(b, Suffix)
  {
    var t := a + "%j" + b;
    if |b| >= |Suffix| {
      assert t[|t| - |Suffix|..] == b[|b| - |Suffix|..];
    } else {
      assert t[|t| - |b| - 1] == 'j';
    }
  }

  /** A template with one "%j", and no "%j" in `a` or `b`, resolves to its text with
      the job id in place of the "%j", the suffix being added after it only
      when the tail lacks it. */
  lemma ResolveOnePlaceholder(a: string, b: string, jid: nat)
    requires NoPlaceholder(a) && NoPlaceholder(b)
    ensures ResolveStatsName(a + "%j" + b, jid) == a + NatToString(jid) + EnsureSuffix(b, Suffix)
  {
    var t := a + "%j" + b;
    SuffixAfterPlaceholder(a, b);
    if !EndsWith(b, Suffix) {
      assert t + Suffix == a + "%j" + (b + Suffix);
    }
    if !EndsWith(b, Suffix) {
      PercentFree(Suffix);
      NoPlaceholderConcat(b, Suffix);
    }
    SubstituteOnePlaceholder(a, EnsureSuffix(b, Suffix), NatToString(jid));
  }

  /** The default template resolves to "job_<jid>_status.tsv". */
  lemma DefaultStatsName(jid: nat)
    ensures ResolveStatsName(DefaultTemplate, jid) == "job_" + NatToString(jid) + "_status.tsv"
  {
    assert DefaultTemplate == "job_" + "%j" + "_status.tsv";
    assert EndsWith("_status.tsv", Suffix);
    PercentFree("job_");
    PercentFree("_status.tsv");
    ResolveOnePlaceholder("job_", "_status.tsv", jid);
  }

  /** A '%' that does not open a "%j" is kept: "job_%a_%j.tsv" becomes
      "job_%a_<jid>.tsv". */
  lemma StrayPercent(jid: nat)
    ensures ResolveStatsName("job_%a_%j.tsv", jid) == "job_%a_" + NatToString(jid) + ".tsv"
  {
    var a := "job_%a_";
    assert NoPlaceholder(a) by {
      forall i | 0 <= i < |a| - 1
        ensures !(a[i] == '%' && a[i + 1] == 'j')
      {
        if a[i] == '%' {
          assert i == 4;
        }
      }
    }
    PercentFree(".tsv");
    assert "job_%a_%j.tsv" == a + "%j" + ".tsv";
    assert EndsWith(".tsv", Suffix);
    ResolveOnePlaceholder(a, ".tsv", jid);
  }

  /** The suffix is checked before substitution: "foo%j" becomes
      "foo<jid>.tsv". */
  lemma SuffixThenSubstitute(jid: nat)
    ensures ResolveStatsName("foo%j", jid) == "foo" + NatToString(jid) + ".tsv"
  {
    assert "foo%j" == "foo" + "%j" + "";
    assert !EndsWith("", Suffix) && "" + Suffix == ".tsv";
    PercentFree("foo");
    ResolveOnePlaceholder("foo", "", jid);
  }

  // ---------------------------------------------------------------------
  // The default as the source writes it.

  /** What argparse leaves in `args.stats_file`: `nargs=1` turns a value
      given on the command line into a one-element list, but the default of
      line 70 stays a bare string. */
  datatype StatsArg = Listed(value: string) | Bare(value: string)

  datatype PyError = IndexError | TypeError

  datatype Resolution = Resolved(name: string) | Raised(error: PyError)

  /** Lines 83-86 applied to `args.stats_file` as written. For a bare string,
      `[0]` is its first character, which never ends in ".tsv", so line 84
      assigns to an item of a `str` and raises `TypeError`. */
  function ResolveAsWritten(arg: StatsArg, jid: nat): (res: Resolution)
    ensures arg.Bare? ==> res.Raised?
    ensures arg.Listed? ==> res.Resolved? && EndsWith(res.name, Suffix) && NoPlaceholder(res.name)
  {
    match arg
    case Listed(t) => Resolved(ResolveStatsName(t, jid))
    case Bare(t) =>
      if |t| == 0 then Raised(IndexError)
      else
        assert !EndsWith(t[..1], Suffix);
        Raised(TypeError)
  }

  /** Without `--stats-file` the source never gets past line 84, while the
      intended default names "job_<jid>_status.tsv". */
  lemma DefaultTemplateAsWritten(jid: nat)
    ensures ResolveAsWritten(Bare(DefaultTemplate), jid) == Raised(TypeError)
    ensures ResolveAsWritten(Listed(DefaultTemplate), jid) == Resolved("job_" + NatToString(jid) + "_status.tsv")
  {
    DefaultStatsName(jid);
  }
}

=== FILE: statsrow.dfy ===
/** The stats row (dSQBatch.py, `run_job`, lines 110-142): seven
    tab-separated fields in the order of `out_cols` (task id, exit code,
    hostname, start, end, elapsed, command), timestamps as
    `%Y-%m-%d %H:%M:%S`, elapsed seconds with two decimals, and the newline
    `print` adds. Every rendered field reads back to the value it renders. */
module StatsRow {
  import opened Text
  import opened Decimal

  /** A clock reading as far as `strftime("%Y-%m-%d %H:%M:%S")` shows it;
      sub-second parts never reach the row. */
  datatype DateTime = DateTime(year: nat, month: nat, day: nat, hour: nat, minute: nat, second: nat)

  predicate IsLeapYear(y: nat) {
    y % 4 == 0 && (y % 100 != 0 || y % 400 == 0)
  }

  function DaysInMonth(y: nat, m: nat): nat
    requires 1 <= m <= 12
  {
    if m == 2 then (if IsLeapYear(y) then 29 else 28)
    else if m == 4 || m == 6 || m == 9 || m == 11 then 30
    else 31
  }

  /** The values a Python `datetime` can hold. */
  predicate ValidDateTime(t: DateTime) {
    && 1 <= t.year <= 9999
    && 1 <= t.month <= 12
    && 1 <= t.day <= DaysInMonth(t.year, t.month)
    && t.hour < 24 && t.minute < 60 && t.second < 60
  }

  /** "YYYY-MM-DD HH:MM:SS": 19 characters, digits except for the five
      separators. */
  predicate TimestampShape(s: string) {
    && |s| == 19
    && s[4] == '-' && s[7] == '-' && s[10] == ' ' && s[13] == ':' && s[16] == ':'
    && AllDigits(s[..4]) && AllDigits(s[5..7]) && AllDigits(s[8..10])
    && AllDigits(s[11..13]) && AllDigits(s[14..16]) && AllDigits(s[17..])
  }

  /** `a`, `x`, `b`, `y`, `c` written back to back: both halves of a
      timestamp have this shape. */
  function TimestampHalf(a: string, x: char, b: string, y: char, c: string): string {
    a + [x] + b + [y] + c
  }

  lemma TimestampHalfLayout(a: string, x: char, b: string, y: char, c: string)
    ensures var s := TimestampHalf(a, x, b, y, c);
      && |s| == |a| + |b| + |c| + 2
      && s[..|a|] == a && s[|a|] == x
      && s[|a| + 1..|a| + 1 + |b|] == b && s[|a| + 1 + |b|] == y
      && s[|a| + 2 + |b|..] == c
  {
    var s := TimestampHalf(a, x, b, y, c);
    assert s == a + ([x] + b + [y] + c);
    var s1 := [x] + b + [y] + c;
    assert s1 == [x] + b + ([y] + c);
    assert s[|a|..] == s1;
    assert s1[1..1 + |b|] == b;
  }

  /** `t.strftime("%Y-%m-%d %H:%M:%S")` (line 121-123). */
  function FormatTimestamp(t: DateTime): (s: string)
    requires ValidDateTime(t)
    ensures TimestampShape(s)
  {
    TimestampParts(t);
    TimestampHalf(Pad(t.year, 4), '-', Pad(t.month, 2), '-', Pad(t.day, 2)) + " "
      + TimestampHalf(Pad(t.hour, 2), ':', Pad(t.minute, 2), ':', Pad(t.second, 2))
  }

  /** Where each part of a formatted timestamp sits. */
  lemma TimestampParts(t: DateTime)
    requires ValidDateTime(t)
    ensures var s := TimestampHalf(Pad(t.year, 4), '-', Pad(t.month, 2), '-', Pad(t.day, 2)) + " "
      + TimestampHalf(Pad(t.hour, 2), ':', Pad(t.minute, 2), ':', Pad(t.second, 2));
      && |s| == 19
      && s[4] == '-' && s[7] == '-' && s[10] == ' ' && s[13] == ':' && s[16] == ':'
      && s[..4] == Pad(t.year, 4) && s[5..7] == Pad(t.month, 2) && s[8..10] == Pad(t.day, 2)
      && s[11..13] == Pad(t.hour, 2) && s[14..16] == Pad(t.minute, 2) && s[17..] == Pad(t.second, 2)
  {
    var date := TimestampHalf(Pad(t.year, 4), '-', Pad(t.month, 2), '-', Pad(t.day, 2));
    var time := TimestampHalf(Pad(t.hour, 2), ':', Pad(t.minute, 2), ':', Pad(t.second, 2));
    TimestampHalfLayout(Pad(t.year, 4), '-', Pad(t.month, 2), '-', Pad(t.day, 2));
    TimestampHalfLayout(Pad(t.hour, 2), ':', Pad(t.minute, 2), ':', Pad(t.second, 2));
    var s := date + " " + time;
    assert s[..10] == date && s[11..] == time;
    assert s[..4] == date[..4] && s[5..7] == date[5..7] && s[8..10] == date[8..];
    assert s[11..13] == time[..2] && s[14..16] == time[3..5] && s[17..] == time[6..];
  }

  /** Reads a timestamp back into its six numbers. */
  function ParseTimestamp(s: string): DateTime
    requires TimestampShape(s)
  {
    DateTime(ParseNat(s[..4]), ParseNat(s[5..7]), ParseNat(s[8..10]),
             ParseNat(s[11..13]), ParseNat(s[14..16]), ParseNat(s[17..]))
  }

  lemma TimestampRoundTrip(t: DateTime)
    requires ValidDateTime(t)
    ensures ParseTimestamp(FormatTimestamp(t)) == t
  {
    TimestampParts(t);
    PadRoundTrip(t.year, 4);
    PadRoundTrip(t.month, 2);
    PadRoundTrip(t.day, 2);
    PadRoundTrip(t.hour, 2);
    PadRoundTrip(t.minute, 2);
    PadRoundTrip(t.second, 2);
  }

  // ---------------------------------------------------------------------
  // Elapsed time.

  /** Text of the form `-?<digits>.<two digits>`. */
  predicate ElapsedShape(s: string) {
    var u := if |s| > 0 && s[0] == '-' then s[1..] else s;
    |u| >= 4 && u[|u| - 3] == '.' && Canonical(u[..|u| - 3]) && AllDigits(u[|u| - 2..])
  }

  function Magnitude(h: int): nat {
    if h < 0 then -h else h
  }

  /** `"{:.02f}".format(seconds)` for an elapsed time given in hundredths of
      a second (line 124 and 138): the whole seconds, a point, and exactly
      two fractional digits; a minus sign when the wall clock went back. */
  function FormatElapsed(hundredths: int): (s: string)
    ensures ElapsedShape(s)
    ensures hundredths < 0 <==> s[0] == '-'
  {
    var m := Magnitude(hundredths);
    var u := NatToString(m / 100) + "." + Pad(m % 100, 2);
    assert u[..|u| - 3] == NatToString(m / 100);
    assert u[|u| - 2..] == Pad(m % 100, 2);
    assert hundredths < 0 ==> ("-" + u)[1..] == u;
    if hundredths < 0 then "-" + u else u
  }

  /** Reads elapsed text back as hundredths of a second. */
  function ParseElapsed(s: string): int
    requires ElapsedShape(s)
  {
    var u := if |s| > 0 && s[0] == '-' then s[1..] else s;
    var m := ParseNat(u[..|u| - 3]) * 100 + ParseNat(u[|u| - 2..]);
    if |s| > 0 && s[0] == '-' then -m else m
  }

  lemma ElapsedRoundTrip(hundredths: int)
    ensures ParseElapsed(FormatElapsed(hundredths)) == hundredths
  {
    var m := Magnitude(hundredths);
    var u := NatToString(m / 100) + "." + Pad(m % 100, 2);
    assert u[..|u| - 3] == NatToString(m / 100);
    assert u[|u| - 2..] == Pad(m % 100, 2);
    NatRoundTrip(m / 100);
    PadRoundTrip(m % 100, 2);
    if hundredths < 0 {
      assert ("-" + u)[1..] == u;
    }
  }

  // ---------------------------------------------------------------------
  // The record and its row.

  /** The column names of `out_cols` (lines 112-120), in row order. */
  const Columns: seq<string> :=
    ["Array_Task_ID", "Exit_Code", "Hostname", "T_Start", "T_End", "T_Elapsed", "Task"]

  /** One execution record: what lines 125-130 put in `out_dict`. */
  datatype Record = Record(
    taskId: nat,
    exitCode: int,
    hostname: string,
    start: DateTime,
    end: DateTime,
    elapsed: int,
    task: string)

  predicate ValidRecord(rec: Record) {
    ValidDateTime(rec.start) && ValidDateTime(rec.end)
  }

  /** The seven rendered fields, one per column. */
  function Fields(rec: Record): (fs: seq<string>)
    requires ValidRecord(rec)
    ensures |fs| == |Columns|
  {
    [NatToString(rec.taskId), IntToString(rec.exitCode), rec.hostname,
     FormatTimestamp(rec.start), FormatTimestamp(rec.end), FormatElapsed(rec.elapsed), rec.task]
  }

  /** Lines 137-142: the fields joined by tabs, plus the newline `print`
      appends. */
  function FormatRow(rec: Record): (row: string)
    requires ValidRecord(rec)
    ensures |row| > 0 && row[|row| - 1] == '\n'
  {
    Join(Fields(rec), '\t') + "\n"
  }

  lemma DigitsAvoid(s: string, c: char)
    requires AllDigits(s) && !IsDigit(c)
    ensures c !in s
  {
  }

  lemma IntAvoids(i: int, c: char)
    requires !IsDigit(c) && c != '-'
    ensures c !in IntToString(i)
  {
    if i < 0 {
      DigitsAvoid(NatToString(-i), c);
    }
  }

  lemma ElapsedAvoids(s: string, c: char)
    requires ElapsedShape(s)
    requires !IsDigit(c) && c != '-' && c != '.'
    ensures c !in s
  {
    var u := if |s| > 0 && s[0] == '-' then s[1..] else s;
    DigitsAvoid(u[..|u| - 3], c);
    DigitsAvoid(u[|u| - 2..], c);
    assert u == u[..|u| - 3] + ['.'] + u[|u| - 2..];
    assert |s| > 0 && s[0] == '-' ==> s == "-" + u;
  }

  lemma TimestampAvoids(s: string, c: char)
    requires TimestampShape(s)
    requires !IsDigit(c) && c != '-' && c != ' ' && c != ':'
    ensures c !in s
  {
    forall i | 0 <= i < |s|
      ensures s[i] != c
    {
      if i < 4 { assert s[..4][i] == s[i]; }
      else if 4 < i < 7 { assert s[5..7][i - 5] == s[i]; }
      else if 7 < i < 10 { assert s[8..10][i - 8] == s[i]; }
      else if 10 < i < 13 { assert s[11..13][i - 11] == s[i]; }
      else if 13 < i < 16 { assert s[14..16][i - 14] == s[i]; }
      else if 16 < i { assert s[17..][i - 17] == s[i]; }
    }
  }

  /** None of the six fields the program renders itself contains `c`, when
      `c` is neither a digit nor one of the characters numbers and
      timestamps are written with. */
  lemma RenderedFieldsAvoid(rec: Record, c: char)
    requires ValidRecord(rec)
    requires !IsDigit(c) && c != '-' && c != ' ' && c != ':' && c != '.'
    ensures forall i :: 0 <= i < 6 && i != 2 ==> c !in Fields(rec)[i]
  {
    var fs := Fields(rec);
    DigitsAvoid(fs[0], c);
    IntAvoids(rec.exitCode, c);
    TimestampAvoids(fs[3], c);
    TimestampAvoids(fs[4], c);
    ElapsedAvoids(fs[5], c);
  }

  /** Splitting a row (without its newline) on tabs gives back the first six
      fields exactly; the command is everything after the sixth tab, even
      when it holds tabs of its own, and with none the split is exactly the
      seven fields. */
  lemma RowColumns(rec: Record)
    requires ValidRecord(rec)
    requires '\t' !in rec.hostname
    ensures var row := FormatRow(rec);
      var cells := Split(row[..|row| - 1], '\t');
      && |cells| >= |Columns|
      && cells[..6] == Fields(rec)[..6]
      && Join(cells[6..], '\t') == rec.task
      && ('\t' !in rec.task ==> cells == Fields(rec))
  {
    var fs := Fields(rec);
    var row := FormatRow(rec);
    assert row[..|row| - 1] == Join(fs, '\t');
    RenderedFieldsAvoid(rec, '\t');
    SplitJoin(fs, '\t');
    var cells := Split(Join(fs, '\t'), '\t');
    assert cells[6..] == Split(rec.task, '\t');
    JoinSplit(rec.task, '\t');
    if '\t' !in rec.task {
      SplitNoSep(rec.task, '\t');
    }
  }

  /** Each rendered field reads back to the record value it came from. */
  lemma FieldsReadBack(rec: Record)
    requires ValidRecord(rec)
    ensures var fs := Fields(rec);
      && Canonical(fs[0]) && ParseNat(fs[0]) == rec.taskId
      && (fs[1][0] == '-' ==> Canonical(fs[1][1..]))
      && (fs[1][0] != '-' ==> Canonical(fs[1]))
      && ParseInt(fs[1]) == rec.exitCode
      && fs[2] == rec.hostname
      && ParseTimestamp(fs[3]) == rec.start
      && ParseTimestamp(fs[4]) == rec.end
      && ParseElapsed(fs[5]) == rec.elapsed
      && fs[6] == rec.task
  {
    var fs := Fields(rec);
    assert fs[0] == NatToString(rec.taskId) && fs[1] == IntToString(rec.exitCode);
    assert fs[3] == FormatTimestamp(rec.start) && fs[4] == FormatTimestamp(rec.end);
    assert fs[5] == FormatElapsed(rec.elapsed);
    NatRoundTrip(rec.taskId);
    IntRoundTrip(rec.exitCode);
    TimestampRoundTrip(rec.start);
    TimestampRoundTrip(rec.end);
    ElapsedRoundTrip(rec.elapsed);
  }

  /** A row is one line: its only newline is the one at the end, as long as
      the hostname and the command hold none. */
  lemma RowIsOneLine(rec: Record)
    requires ValidRecord(rec)
    requires '\n' !in rec.hostname && '\n' !in rec.task
    ensures var row := FormatRow(rec); '\n' !in row[..|row| - 1]
  {
    var fs := Fields(rec);
    RenderedFieldsAvoid(rec, '\n');
    JoinAvoids(fs, '\t', '\n');
    var row := FormatRow(rec);
    assert row[..|row| - 1] == Join(fs, '\t');
  }
}

=== FILE: text.dfy ===
/** Character-level helpers shared by the job-line lookup, the stats-file
    name and the stats row: Python's notion of whitespace, `str.strip()`,
    and splitting / joining a string on one separator character
    (`str.split(sep)` and `sep.join(parts)`). */
module Text {

  /** Python's `str.isspace` for one character: the characters `str.strip()`
      (with no argument) removes from either end of a string. */
  predicate IsSpace(c: char) {
    || ('\t' <= c <= '\r')
    || ('\U{1C}' <= c <= '\U{1F}')
    || c == ' '
    || c == '\U{85}'
    || c == '\U{A0}'
    || c == '\U{1680}'
    || ('\U{2000}' <= c <= '\U{200A}')
    || c == '\U{2028}'
    || c == '\U{2029}'
    || c == '\U{202F}'
    || c == '\U{205F}'
    || c == '\U{3000}'
  }

  predicate AllSpace(s: string) {
    forall i :: 0 <= i < |s| ==> IsSpace(s[i])
  }

  /** Neither end of `s` is whitespace (the empty string qualifies). */
  predicate Trimmed(s: string) {
    |s| == 0 || (!IsSpace(s[0]) && !IsSpace(s[|s| - 1]))
  }

  /** `str.rstrip()`: the longest prefix that does not end in whitespace. */
  function TrimRight(s: string): (r: string)
    ensures |r| <= |s| && r == s[..|r|]
    ensures AllSpace(s[|r|..])
    ensures |r| > 0 ==> !IsSpace(r[|r| - 1])
    decreases |s|
  {
    if |s| > 0 && IsSpace(s[|s| - 1]) then TrimRight(s[..|s| - 1]) else s
  }

  /** `str.lstrip()`: the longest suffix that does not start with whitespace. */
  function TrimLeft(s: string): (r: string)
    ensures |r| <= |s| && r == s[|s| - |r|..]
    ensures AllSpace(s[..|s| - |r|])
    ensures |r| > 0 ==> !IsSpace(r[0])
    decreases |s|
  {
    if |s| > 0 && IsSpace(s[0]) then TrimLeft(s[1..]) else s
  }

  /** `str.strip()`: `s` with leading and trailing whitespace removed. It is
      empty exactly when `s` is all whitespace; `StripPiece` shows the result
      is a contiguous piece of `s` with only whitespace cut away. */
  function Strip(s: string): (r: string)
    ensures Trimmed(r)
    ensures |r| == 0 <==> AllSpace(s)
  {
    StripEmpty(s);
    TrimLeft(TrimRight(s))
  }

  lemma StripEmpty(s: string)
    ensures var r := TrimLeft(TrimRight(s)); |r| == 0 <==> AllSpace(s)
  {
    if |TrimLeft(TrimRight(s))| == 0 {
      StripEmptyOnlySpace(s);
    } else {
      StripNonEmptyKeepsNonSpace(s);
    }
  }

  lemma StripEmptyOnlySpace(s: string)
    requires |TrimLeft(TrimRight(s))| == 0
    ensures AllSpace(s)
  {
    var t := TrimRight(s);
    assert t[..|t|] == t && s[..|t|] == t;
    AllSpaceAt(s, |t|);
  }

  lemma StripNonEmptyKeepsNonSpace(s: string)
    requires |TrimLeft(TrimRight(s))| > 0
    ensures !AllSpace(s)
  {
    var t := TrimRight(s);
    var r := TrimLeft(t);
    var k := |t| - |r|;
    assert r[0] == t[k] && t[k] == s[k];
  }

  /** A string is all whitespace when both sides of some cut are. */
  lemma AllSpaceAt(s: string, k: nat)
    requires k <= |s| && AllSpace(s[..k]) && AllSpace(s[k..])
    ensures AllSpace(s)
  {
    forall i | 0 <= i < |s|
      ensures IsSpace(s[i])
    {
      if i < k {
        assert s[i] == s[..k][i];
      } else {
        assert s[i] == s[k..][i - k];
      }
    }
  }

  /** The stripped string occurs in `s` between two runs of whitespace. */
  lemma StripPiece(s: string)
    ensures var r := Strip(s);
      exists i :: 0 <= i <= |s| - |r| && r == s[i..i + |r|] && AllSpace(s[..i]) && AllSpace(s[i + |r|..])
  {
    var t := TrimRight(s);
    var r := TrimLeft(t);
    var i := |t| - |r|;
    assert s[..i] == t[..i];
    assert s[i + |r|..] == s[|t|..];
    assert r == s[i..i + |r|];
  }

  /** Every character of the stripped string comes from `s`. */
  lemma StripChars(s: string)
    ensures forall c :: c in Strip(s) ==> c in s
  {
    StripPiece(s);
  }

  lemma AllSpaceConcat(a: string, b: string)
    requires AllSpace(a) && AllSpace(b)
    ensures AllSpace(a + b)
  {
  }

  lemma {:induction false} TrimRightExact(p: string, b: string)
    requires AllSpace(b)
    requires |p| == 0 || !IsSpace(p[|p| - 1])
    ensures TrimRight(p + b) == p
    decreases |b|
  {
    if |b| > 0 {
      assert (p + b)[..|p + b| - 1] == p + b[..|b| - 1];
      TrimRightExact(p, b[..|b| - 1]);
    } else {
      assert p + b == p;
    }
  }

  lemma {:induction false} TrimLeftExact(a: string, p: string)
    requires AllSpace(a)
    requires |p| == 0 || !IsSpace(p[0])
    ensures TrimLeft(a + p) == p
    decreases |a|
  {
    if |a| > 0 {
      assert (a + p)[1..] == a[1..] + p;
      TrimLeftExact(a[1..], p);
    } else {
      assert a + p == p;
    }
  }

  /** Strip is determined by its contract: whatever whitespace surrounds a
      trimmed string, stripping gives back exactly that string. */
  lemma StripExact(a: string, m: string, b: string)
    requires AllSpace(a) && AllSpace(b) && Trimmed(m)
    ensures Strip(a + m + b) == m
  {
    if |m| == 0 {
      assert a + m + b == "" + (a + b);
      AllSpaceConcat(a, b);
      TrimRightExact("", a + b);
      TrimLeftExact("", "");
    } else {
      assert (a + m)[|a + m| - 1] == m[|m| - 1];
      TrimRightExact(a + m, b);
      TrimLeftExact(a, m);
    }
  }

  /** A string with no whitespace at either end is its own strip. */
  lemma TrimmedIsStripped(m: string)
    requires Trimmed(m)
    ensures Strip(m) == m
  {
    assert "" + m + "" == m;
    StripExact("", m, "");
  }

  /** Stripping twice is stripping once. */
  lemma StripIdempotent(s: string)
    ensures Strip(Strip(s)) == Strip(s)
  {
    TrimmedIsStripped(Strip(s));
  }

  /** Trailing whitespace (such as the line terminator a file iterator
      leaves on each line) does not change the stripped result. */
  lemma StripIgnoresTrailingSpace(s: string, c: char)
    requires IsSpace(c)
    ensures Strip(s + [c]) == Strip(s)
  {
    assert (s + [c])[..|s|] == s;
  }

  // ---------------------------------------------------------------------
  // Splitting and joining on one separator character.

  /** Python's `s.split(sep)` for a one-character separator: the pieces
      between separators, always at least one (`"".split(sep) == [""]`). */
  function Split(s: string, sep: char): (parts: seq<string>)
    ensures |parts| >= 1
    decreases |s|
  {
    if |s| == 0 then [""]
    else
      var tail := Split(s[1..], sep);
      if s[0] == sep then [""] + tail
      else [[s[0]] + tail[0]] + tail[1..]
  }

  /** No string of `parts` holds `c`. */
  predicate NoneHolds(parts: seq<string>, c: char) {
    forall i :: 0 <= i < |parts| ==> c !in parts[i]
  }

  /** No piece of a split holds the separator. */
  lemma {:induction false} SplitAvoidsSep(s: string, sep: char)
    ensures NoneHolds(Split(s, sep), sep)
    decreases |s|
  {
    if |s| > 0 {
      var c, t := s[0], s[1..];
      assert s == [c] + t;
      SplitAvoidsSep(t, sep);
      SplitCons(c, t, sep);
      var x := Split(t, sep);
      if c != sep {
        assert sep !in [c] + x[0];
      }
    }
  }

  /** Python's `sep.join(parts)` for a non-empty list and a separator of any
      length. */
  function JoinWith(parts: seq<string>, sep: string): string
    requires |parts| >= 1
    decreases |parts|
  {
    if |parts| == 1 then parts[0] else parts[0] + sep + JoinWith(parts[1..], sep)
  }

  lemma JoinWithThree(x: string, y: string, z: string, sep: string)
    ensures JoinWith([x, y, z], sep) == x + sep + y + sep + z
  {
    assert [x, y, z][1..] == [y, z] && [y, z][1..] == [z];
    assert JoinWith([y, z], sep) == y + sep + z;
    assert x + sep + (y + sep + z) == x + sep + y + sep + z;
  }

  /** `sep.join(parts)` for a one-character separator. */
  function Join(parts: seq<string>, sep: char): string
    requires |parts| >= 1
  {
    JoinWith(parts, [sep])
  }

  /** Joining the pieces of a split restores the string. */
  lemma {:induction false} JoinSplit(s: string, sep: char)
    ensures Join(Split(s, sep), sep) == s
    decreases |s|
  {
    if |s| > 0 {
      var tail := Split(s[1..], sep);
      JoinSplit(s[1..], sep);
      if s[0] != sep && |tail| > 1 {
        assert Join(tail, sep) == tail[0] + [sep] + Join(tail[1..], sep);
        var parts := [[s[0]] + tail[0]] + tail[1..];
        assert parts[1..] == tail[1..];
      }
    }
  }

  /** Split one character off the front. */
  lemma SplitCons(c: char, t: string, sep: char)
    ensures var x := Split(t, sep);
      Split([c] + t, sep) == if c == sep then [""] + x else [[c] + x[0]] + x[1..]
  {
    assert ([c] + t)[0] == c && ([c] + t)[1..] == t;
  }

  /** The list algebra behind `SplitConcat`: adding one character in front
      of a split commutes with appending further pieces. */
  lemma ConsAppend(c: char, sep: char, x: seq<string>, y: seq<string>)
    requires |x| >= 1
    ensures (if c == sep then [""] + (x + y) else [[c] + (x + y)[0]] + (x + y)[1..])
         == (if c == sep then [""] + x else [[c] + x[0]] + x[1..]) + y
  {
    if c != sep {
      assert (x + y)[1..] == x[1..] + y;
    }
  }

  /** A separator splits the string into the pieces before it and the
      pieces after it. */
  lemma {:induction false} SplitConcat(p: string, sep: char, q: string)
    ensures Split(p + [sep] + q, sep) == Split(p, sep) + Split(q, sep)
    decreases |p|
  {
    if |p| == 0 {
      assert p + [sep] + q == [sep] + q;
      SplitCons(sep, q, sep);
    } else {
      var c, p' := p[0], p[1..];
      var t := p' + [sep] + q;
      assert p + [sep] + q == [c] + t;
      assert p == [c] + p';
      SplitConcat(p', sep, q);
      SplitCons(c, t, sep);
      SplitCons(c, p', sep);
      ConsAppend(c, sep, Split(p', sep), Split(q, sep));
    }
  }

  /** A string without the separator is a single piece. */
  lemma {:induction false} SplitNoSep(s: string, sep: char)
    requires sep !in s
    ensures Split(s, sep) == [s]
    decreases |s|
  {
    if |s| > 0 {
      SplitNoSep(s[1..], sep);
      assert [s[0]] + s[1..] == s;
    }
  }

  /** The list facts behind `SplitJoin`'s inductive step: dropping the first
      piece keeps the others' freedom from the separator, and the front of
      the list is its first piece followed by the front of the rest. */
  lemma FrontOfTail(parts: seq<string>, sep: char)
    requires |parts| > 1 && NoneHolds(parts[..|parts| - 1], sep)
    ensures var tail := parts[1..];
      && sep !in parts[0]
      && NoneHolds(tail[..|tail| - 1], sep)
      && parts[..|parts| - 1] == [parts[0]] + tail[..|tail| - 1]
      && tail[|tail| - 1] == parts[|parts| - 1]
  {
    var front := parts[..|parts| - 1];
    assert front[0] == parts[0];
    var tail := parts[1..];
    var tailFront := tail[..|tail| - 1];
    forall i | 0 <= i < |tailFront|
      ensures sep !in tailFront[i]
    {
      assert tailFront[i] == front[i + 1];
    }
  }

  /** Splitting a join recovers every piece but the last, which is split in
      turn; so when no piece holds the separator the round trip is exact. */
  lemma {:induction false} SplitJoin(parts: seq<string>, sep: char)
    requires |parts| >= 1
    requires NoneHolds(parts[..|parts| - 1], sep)
    ensures Split(Join(parts, sep), sep) == parts[..|parts| - 1] + Split(parts[|parts| - 1], sep)
    decreases |parts|
  {
    if |parts| > 1 {
      var tail := parts[1..];
      FrontOfTail(parts, sep);
      SplitJoin(tail, sep);
      var rest := Join(tail, sep);
      assert Join(parts, sep) == parts[0] + [sep] + rest;
      SplitConcat(parts[0], sep, rest);
      SplitNoSep(parts[0], sep);
      ConcatAssoc([parts[0]], tail[..|tail| - 1], Split(parts[|parts| - 1], sep));
    }
  }

  lemma ConcatAssoc(a: seq<string>, b: seq<string>, c: seq<string>)
    ensures a + (b + c) == (a + b) + c
  {
  }

  lemma SplitJoinExact(parts: seq<string>, sep: char)
    requires |parts| >= 1
    requires NoneHolds(parts, sep)
    ensures Split(Join(parts, sep), sep) == parts
  {
    SplitJoin(parts, sep);
    SplitNoSep(parts[|parts| - 1], sep);
  }

  /** A character that occurs in no piece and is not the separator does not
      occur in the join. */
  lemma {:induction false} JoinAvoids(parts: seq<string>, sep: char, c: char)
    requires |parts| >= 1 && c != sep
    requires NoneHolds(parts, c)
    ensures c !in Join(parts, sep)
    decreases |parts|
  {
    if |parts| > 1 {
      JoinAvoids(parts[1..], sep, c);
    }
  }
}
